=== FILE: README.md ===
# Music visualiser core, modelled in Dafny

The system is a browser music visualiser. A `Visualizer` object owns a 2D
canvas, a 1024-entry byte buffer filled from a Web Audio analyser each
frame, and one drawing *module*. While it is active and has a module, every
animation frame runs `update`, which does the following in order:

- re-arms itself with `requestAnimationFrame`;
- reads the spectrum;
- saves the canvas state;
- lets the module draw;
- draws the optional *Analyzer* overlay (a labelled bar per frequency bin);
- restores the canvas state;
- draws a frames-per-second readout whose value is recomputed at most
  twice a second.

The Visualizer also hands modules four helpers:

- `R`, an rgba colour with a clamped alpha;
- `interp`, a two-mask 24-bit colour blend;
- `l`, a linear interpolation;
- `cls`, which clears the canvas (CircularBars calls it at the start of
  every frame).

The module modelled here is *CircularBars*. It draws `amount` bars around
the centre, each rotated a further `totalAngle / amount`, and then a ring
whose radius follows the mean amplitude. It can advance `totalAngle` by one
degree per frame, wrapping to 720 past 100000.

Files:

- `jsnumbers.dfy` (`JsNumbers`): the JavaScript number semantics that matter.
  - typed-array bytes, and `undefined` for an out-of-range read;
  - `ToInt32`;
  - `&`, `|` and `>>` defined bit by bit on integers.
- `helpers.dfy` (`Helpers`): `R`, `interp` and `l`.
- `canvas.dfy` (`Canvas2D`): the canvas 2D context as a class.
  - fields: the drawing state in force, the `save` stack, the current path,
    and a log of every draw call with the state it was made in;
  - transforms are kept as the list of `translate`/`rotate` steps applied.
- `circular.dfy` (`Circular`): the CircularBars module, with its frame as a
  function of the settings and the spectrum.
- `analyzer.dfy` (`Overlay`): the Analyzer overlay.
- `framerate.dfy` (`FrameRate`): the frames-per-second bookkeeping.
- `schedule.dfy` (`Scheduling`): how `update`, `start`, `stop` and
  `useModule` move the callbacks queued in the animation-frame queue.
- `visualizer.dfy` (`Orchestrator`): the `Visualizer` class and its
  per-frame cycle.

## Model

| member | source | states |
|---|---|---|
| Helpers.ClampAlpha | js/Visualizer.js:43-45 | a missing alpha is 1; the result is in [0, 1]; above 1 gives 1, below 0 gives 0, otherwise the value itself |
| Helpers.R | js/Visualizer.js:42-47 | the alpha is clamped as above; each channel is its argument truncated toward zero by `|0` (for arguments in the 32-bit range) |
| Helpers.RFixedPoint | js/Visualizer.js:42-47 | feeding R's own channels and alpha back into R gives the same colour |
| Helpers.Mix | js/Visualizer.js:54-58 | one blended channel lies between the two input channels |
| Helpers.Interp | js/Visualizer.js:50-59 | the two-mask blend, computed with the 32-bit `&`, `>>` and `|`, is a 24-bit colour whose red, green and blue are each the weighted mean of the inputs' channels, rounded down |
| Helpers.NoCarryBetweenLanes | js/Visualizer.js:57 | in the red+blue lane the blue products never carry into red, and the lane stays below 2^32 |
| Helpers.MaskedLanes | js/Visualizer.js:51-52 | `& 0xff00ff` keeps blue and red; `& 0x00ff00` keeps green |
| Helpers.RedBlueLane | js/Visualizer.js:57 | the red+blue half of the expression yields blended blue plus 0x10000 times blended red |
| Helpers.GreenLane | js/Visualizer.js:58 | the green half yields 0x100 times blended green |
| Helpers.PackChannels | js/Visualizer.js:57-58 | ORing the two halves packs the three blended bytes without overlap |
| Helpers.InterpEndpoints | js/Visualizer.js:50-59 | fraction 0 returns the first colour and fraction 1 the second, cut to 24 bits |
| Helpers.InterpSymmetric | js/Visualizer.js:50-59 | swapping the colours and the weights gives the same blend |
| Helpers.Lerp | js/Visualizer.js:61-63 | amount 0 gives start, amount 1 gives end, and any amount in [0, 1] gives a value between the two, whichever is larger |
| Helpers.LerpBetween | js/Visualizer.js:61-63 | the weighted form equals `start + amt * (end - start)`, and for amounts in [0, 1] the step `amt * (end - start)` has the sign of `end - start` and is no larger |
| Circular.CircularBars.constructor | js/modules/circular.js:6-14 | the defaults: 100 bars, outward, 360 degrees, no auto-rotation, colour `#ba88bf` |
| Circular.BarLength | js/modules/circular.js:41 | a bar is at least 5 long and at least half its amplitude, and is one of the two |
| Circular.BarPlacement | js/modules/circular.js:39-45 | a bar's start moves by `-w / 100` along its axis exactly when it is a non-zero multiple of 3 (towards the centre when outward, away from it when inward); bars start at `w / 8` on the side `inward` picks |
| Circular.RingRadius | js/modules/circular.js:57 | the ring radius is at least 20; at most `radius - 40` when that is at least 20; exactly 20 otherwise; the scaled mean when that lies in between |
| Circular.Sum | js/modules/circular.js:52 | the accumulated amplitude is between 0 and 255 times the count |
| Circular.Mean | js/modules/circular.js:51-53 | the mean lies in [0, 255], and the mean times the count is the sum |
| Circular.RotationsTurn | js/modules/circular.js:37-38 | the per-bar rotations turn by `n * angle` in all and translate nothing |
| Circular.BarOpAt | js/modules/circular.js:37-46 | bar k is drawn after k + 1 rotations, at its offset, with its amplitude's length and the frame's height |
| Circular.ResidualTransform | js/modules/circular.js:36-61 | a frame adds the five groups of transform steps `translate(c)`, the `amount` rotations, `translate(-c)`, then the ring's `translate(c)` and `translate(-c)` (c the canvas centre); they turn by exactly `totalAngle` degrees and their translate arguments sum to zero. Read as a transform, that is a rotation about the canvas centre; the lemma states the sums, not that reading |
| Circular.NextTotalAngle | js/modules/circular.js:63-68 | without auto-rotation the angle is unchanged; with it, an angle below 100000 grows by one and an angle of 100000 or more becomes 720 (the increment passes 100000); from at most 100000 it never exceeds 100000 |
| Circular.AngleStaysBounded | js/modules/circular.js:63-68 | over any number of frames the angle stays at most 100000 and does not drop below both its start and 720 |
| Circular.CountsUp | js/modules/circular.js:63-68 | with auto-rotation, k frames from an angle add exactly k degrees while the result stays at most 100000 |
| Circular.WrapsAfter | js/modules/circular.js:63-68 | with auto-rotation, from any angle up to 100000 the angle is 720 after exactly `100001 - angle` frames |
| Circular.CircularBars.Update | js/modules/circular.js:16-69 | the draw calls of one frame are exactly `FrameOps`: clear, background, the bars, the ring stroke. The new state is `FrameEnd`, the path is the ring, and `totalAngle` advances by `NextTotalAngle` |
| Circular.CircularBars.ClearToBackground | js/modules/circular.js:17-36 | the frame opens with one full-canvas clear and one full-canvas background fill, then sets fill and stroke to the secondary colour and moves the origin to the centre |
| Circular.CircularBars.DrawBars | js/modules/circular.js:37-46 | the loop draws exactly `BarOps`, leaving `amount` rotations on the transform |
| Circular.CircularBars.DrawRing | js/modules/circular.js:55-61 | translate to the centre; a new path of one full arc of radius `ring` and a close; line width `w / 300`, ignored when not positive; one stroke in that state; translate back; the stack unchanged |
| Circular.CircularBars.AverageAmplitude | js/modules/circular.js:51-53 | the averaging loop returns the mean of the first `amount` amplitudes |
| Overlay.BarCount | js/Visualizer.js:176-178 | the loop count is the least n not below `(w - x) / (width + spacing) - 2` |
| Overlay.BarDrawnIff | js/Visualizer.js:176-178 | bar i is drawn iff `i < (w - x) / (width + spacing) - 2` |
| Overlay.DefaultBarsFitBuffer | js/Visualizer.js:149-178 | with the default settings every bar reads inside the 1024-entry buffer iff the canvas is at most 28728 wide |
| Overlay.BarColour | js/Visualizer.js:186-205 | a bar's rectangle is drawn iff its height value exists; it takes the secondary colour iff `freqs[i]` reaches the threshold (or the two colours coincide); its cap always takes the secondary colour |
| Overlay.DefaultBarColour | js/Visualizer.js:160-167 | with the defaults, an in-range bar shows the secondary colour iff its value is 255 |
| Overlay.Draw | js/Visualizer.js:171-208 | one overlay pass appends exactly `BarsOps` for `BarCount` bars and leaves the last font and fill in force |
| Overlay.DrawLabels | js/Visualizer.js:189-197 | the value and bin labels in 12px Tahoma and the primary colour, then the frequency label in 8px Tahoma, at the bar's text x and the three label heights (50 or 60 above the threshold line by the parity of i) |
| Overlay.DrawBar | js/Visualizer.js:180-205 | one loop iteration appends the three labels, the bar if its height exists, and the cap |
| FrameRate.FpsOf | js/Visualizer.js:109 | `1 / delta` is Infinity exactly when delta is 0, and otherwise a rate whose product with delta is 1 |
| FrameRate.FpsStep | js/Visualizer.js:105-114 | the frame time is recorded; the rate and its timestamp change only when the readout is on and more than half a second has passed |
| FrameRate.FpsCadence | js/Visualizer.js:104-110 | k recomputations move the timestamp forward by more than k half-seconds; with the readout off there are none |
| FrameRate.OnceWithinASecond | js/Visualizer.js:104-110 | frames no later than one second after the last recomputation recompute the rate at most once |
| FrameRate.AtMostTwicePerSecond | js/Visualizer.js:104-110 | frames whose times all lie in any one second `[start, start + 1]` recompute the rate at most twice, whatever happened before |
| FrameRate.TwiceIsReached | js/Visualizer.js:104-110 | the bound two is reached: frames at 1 s and 2 s after a start at 0 both recompute |
| FrameRate.LastDrawIsAFrameTime | js/Visualizer.js:107-108 | after a recomputation the timestamp is one of the frame times |
| Scheduling.AfterUpdate | js/Visualizer.js:85-88 | `update` queues one more callback exactly when it is active and has a module |
| Scheduling.AfterStart | js/Visualizer.js:118-124 | an active visualiser is unchanged; an inactive one becomes active and queues a callback iff it has a module |
| Scheduling.AfterStop | js/Visualizer.js:126-129 | as written: inactive, the queued callbacks stay queued |
| Scheduling.AfterStopCancelling | js/Visualizer.js:126-129 | corrected: inactive, nothing queued |
| Scheduling.AfterFire | js/Visualizer.js:85-88 | a fired callback re-arms itself iff the visualiser runs, otherwise the queue shrinks by one |
| Scheduling.StartWhenActive | js/Visualizer.js:120 | starting an active visualiser changes nothing |
| Scheduling.StopIdempotent | js/Visualizer.js:126-129 | stopping twice is stopping once |
| Scheduling.RestartQueuesTwo | js/Visualizer.js:118-129 | as written, `useModule; start; stop; start` before a frame leaves two callbacks queued |
| Scheduling.TwoChainsPersist | js/Visualizer.js:85-88 | once two callbacks are queued, any number of frames keeps two queued |
| Scheduling.StepKeepsSingleChain | js/Visualizer.js:85-133 | with the corrected stop, each event keeps at most one queued callback, present only while running |
| Scheduling.CancellingKeepsSingleChain | js/Visualizer.js:85-133 | with the corrected stop, every event sequence keeps a single chain |
| Scheduling.RestartQueuesOneWhenCancelling | js/Visualizer.js:118-129 | with the corrected stop, the same restart leaves one callback queued |
| Scheduling.StartBeforeModuleStalls | js/Visualizer.js:85-133 | `start` before `useModule` sets the flag but queues nothing, and neither a later module nor a second `start` gets the loop going |
| Orchestrator.CycleIsOneBracket | js/Visualizer.js:95-111 | a running cycle's calls are a `save`, calls that never touch the stack, a `restore`, and then at most the fps text |
| Orchestrator.Visualizer.constructor | js/Visualizer.js:3-26 | the 1024 zero bytes; inactive with no module; analyzer off, fps readout on; times and rate 0; font `15pt Arial` and fill `white` |
| Orchestrator.Visualizer.Update | js/Visualizer.js:85-116 | the queue follows `AfterUpdate`. When not running, nothing else changes. When running, the buffer holds the spectrum and the calls are exactly `CycleOps`: bracket, module, overlay if enabled, fps text if shown. The canvas state is restored and the clock follows `FpsStep`. In both cases the module object and its bar count, direction, auto-rotation and colour are unchanged; when running its angle moves by `NextTotalAngle`, otherwise it is unchanged |
| Orchestrator.Visualizer.UpdateClock | js/Visualizer.js:105-114 | the clock follows `FpsStep`, and the fps text is drawn iff the readout is on |
| Orchestrator.Visualizer.DrawBracketed | js/Visualizer.js:95-103 | save, module frame, overlay if enabled, restore; the drawing state and stack come back unchanged |
| Orchestrator.Visualizer.DrawInside | js/Visualizer.js:97-100 | between `save` and `restore`: the module's frame, then the overlay iff it is enabled, with the module's angle advanced by `NextTotalAngle` |
| Orchestrator.Visualizer.OnAnimationFrame | js/Visualizer.js:85-116 | a fired callback follows `AfterFire` and runs one `update`, with the same cycle, module settings and angle step as `Update` |
| Orchestrator.Visualizer.Start | js/Visualizer.js:118-124 | follows `AfterStart`; on an active visualiser the buffer, clock, module (settings and angle), calls, drawing state, stack and path are unchanged; an inactive one runs one cycle |
| Orchestrator.Visualizer.Stop | js/Visualizer.js:126-129 | as written: follows `AfterStop` (inactive, the queued callback stays queued), the whole canvas cleared, the module and everything else unchanged |
| Orchestrator.Visualizer.StopThenStart | js/Visualizer.js:118-129 | `stop(); start()` on a running visualiser before its next frame leaves one more callback queued than before |
| Orchestrator.Visualizer.Cls | js/Visualizer.js:65-67 | one `clearRect(0, 0, w, h)` and nothing else |
| Orchestrator.Visualizer.UseModule | js/Visualizer.js:131-133 | a fresh module with its defaults (100 bars, outward, 360 degrees, no auto-rotation, colour `#ba88bf`); the queue and the flags are unchanged |
| Orchestrator.Visualizer.ToggleAnalyzer | js/Visualizer.js:135-137 | flips the overlay flag and nothing else |
| Orchestrator.Visualizer.ToggleFps | js/Visualizer.js:139-141 | flips the readout flag and nothing else |

Notes on what the proofs show about the code:

- The overlay is drawn inside the same `save`/`restore` bracket, after the
  module, and the module resets its translations but not its rotations.
  So the overlay is drawn under the module's residual transform steps, which
  turn by `totalAngle` degrees in all and whose translate arguments cancel
  (`Circular.ResidualTransform`, `Circular.FrameEnd`); read as a transform,
  that is a rotation about the canvas centre. It is not drawn in a fresh state. At the default 360
  degrees that rotation is a full turn, so the defaults hide the effect.
- On a canvas narrower than 480 (`w / 8 - 40 < 20`) the ring radius is 20,
  which is larger than `radius - 40`. The lower clamp wins over the upper
  one (`Circular.RingRadius`).
- `start()` before `useModule()` leaves the visualiser active with nothing
  scheduled. Choosing a module afterwards does not start drawing, and
  neither does `start()`, because the visualiser is already active
  (`Scheduling.StartBeforeModuleStalls`).

## Left out

- Audio set-up (`setupAudio`, the Web Audio graph) and the analyser are
  left out. The spectrum is a parameter of each cycle: a sequence of 1024
  bytes written into the buffer.
- `requestAnimationFrame` and `performance.now` are left out as well. The
  animation-frame queue is the count `pending` of waiting callbacks.
  Callbacks are run by `OnAnimationFrame`, and the time in seconds is a
  parameter.
- Floating point: numbers are exact reals.
  - Angles are in degrees; the source's `* PI / 180` gives the same
    rotation.
  - `Math.round` of the rate and the text of every label are not modelled.
    A `fillText` call records its position and drawing state only.
  - Fonts, rasterisation and colour strings are not interpreted.
- Orchestrator.Visualizer.UseModule: only the CircularBars module is
  modelled. `useModule` takes a class in the source, and the other modules
  and js/index.js are not part of this model.
- Circular.CircularBars.Update: it requires `0 < amount <= |freqs|`. With
  `amount` 0 or with fewer amplitudes than bars, the source computes with
  NaN, and those frames are not modelled.
- Orchestrator.Visualizer.Cls: only the default arguments (the whole
  canvas), the only call the core makes.
- The `time` argument of every module `update` is unused by the code
  modelled, and is dropped.
- Helpers.Interp: the fraction is an integer `f2 = 256 * lerp` in [0, 256].
  Fractional weights give fractional products before `>>`, and those are
  not modelled.
- Helpers.R: returns the four fields rather than the `rgba(...)` string.
  The truncation is stated for channel arguments in the 32-bit range; for
  others, `ToInt32` wraps modulo 2^32 as defined in `JsNumbers.Int32`.
- The Analyzer's out-of-range reads (`freqs[i]` past the buffer) are
  `undefined`. A comparison with `undefined` is false. A `fillRect` with a
  NaN height draws nothing, so no rectangle is recorded for it.

## Findings

| source | as written | input that shows it | evidently intended | confidence | as-written member | corrected member |
|---|---|---|---|---|---|---|
| js/Visualizer.js:126-129 | `stop()` clears the `active` flag but does not cancel the animation frame already requested by the last `update`. That callback is still queued when `start()` runs `update` again, so both re-arm themselves | `useModule(CircularBars); start(); stop(); start();` before the next frame leaves two queued callbacks, and every later frame runs `update` twice | one update chain at a time: `stop` cancels the pending frame with `cancelAnimationFrame` | not executed | Scheduling.RestartQueuesTwo | Scheduling.CancellingKeepsSingleChain |

`Scheduling.TwoChainsPersist` shows that the doubled chain never dies out.
`Orchestrator.Visualizer.Stop` models `stop` as written (`Scheduling.AfterStop`),
and `Orchestrator.Visualizer.StopThenStart` shows the class queuing the extra
callback. The corrected `stop` is `Scheduling.AfterStopCancelling`.

=== FILE: analyzer.dfy ===
/**
  * The Analyzer overlay (js/Visualizer.js:144-209): a row of bars, one per
  * frequency bin from `freqOffset` on, as many as fit across the canvas,
  * each labelled with its value, its bin number and its frequency, coloured
  * by a threshold test and topped by a cap drawn at the threshold height.
  */
module Overlay {
  import opened JsNumbers
  import opened Canvas2D

  /** The overlay's settings; the source sets them once in its constructor. */
  datatype Config = Config(
    width: real,
    spacing: real,
    x: real,
    y: real,
    freqOffset: int,
    threshold: real,
    thresholdHeight: real,
    primaryColor: string,
    secondaryColor: string)

  const Default: Config := Config(25.0, 3.0, 0.0, 0.0, 0, 255.0, 2.0, "#b8ff88", "#b0b0b0")

  /** The bar pitch is positive, so the bar count is a number. */
  predicate Valid(c: Config)
  {
    c.width + c.spacing > 0.0
  }

  /** The loop bound `(w - x) / (width + spacing) - 2`; it need not be a whole number. */
  function Bound(c: Config, w: real): real
    requires Valid(c)
  {
    (w - c.x) / (c.width + c.spacing) - 2.0
  }

  /** How many times `for (i = 0; i < amount; i++)` runs: the least n with n >= amount. */
  function BarCount(c: Config, w: real): (n: nat)
    requires Valid(c)
    ensures n as real >= Bound(c, w)
    ensures n == 0 || ((n - 1) as real) < Bound(c, w)
  {
    var a := Bound(c, w);
    if a <= 0.0 then 0
    else if a.Floor as real == a then a.Floor
    else a.Floor + 1
  }

  /** Bar i is drawn exactly when i < (w - x) / (width + spacing) - 2. */
  lemma BarDrawnIff(c: Config, w: real, i: nat)
    requires Valid(c)
    ensures i < BarCount(c, w) <==> (i as real) < Bound(c, w)
  {
  }

  /** With the default settings, every bar reads inside a 1024-entry buffer iff the canvas is at most 28728 wide. */
  lemma DefaultBarsFitBuffer(w: real)
    ensures BarCount(Default, w) <= 1024 <==> w <= 28728.0
  {
    var n := BarCount(Default, w);
    assert Bound(Default, w) == w / 28.0 - 2.0;
    if w <= 28728.0 {
      assert Bound(Default, w) <= 1024.0;
    } else {
      assert Bound(Default, w) > 1024.0;
    }
  }

  /** A bar is drawn in the secondary colour iff `freqs[i] >= threshold`; an undefined read compares false. */
  predicate AtThreshold(c: Config, freq: Option<Byte>)
  {
    freq.Some? && freq.value as real >= c.threshold
  }

  /** Where bar i stands: `i * (width + spacing) + width / 2 + x`. */
  function BarLeft(c: Config, i: nat): real
  {
    i as real * (c.width + c.spacing) + (c.width / 2.0 + c.x)
  }

  /** The value, bin number and frequency labels above bar i, in 12px and 8px Tahoma. */
  function Labels(c: Config, s: DrawState, h: real, i: nat): seq<DrawOp>
  {
    var textX := BarLeft(c, i) + c.width / 2.0 - 10.0;
    var top := (h - c.threshold) - c.thresholdHeight;
    var large := s.(font := "12px Tahoma", fillStyle := c.primaryColor);
    [FillText(textX, top - 10.0, large), FillText(textX, top - 30.0, large),
     FillText(textX, top - (if i % 2 == 0 then 50.0 else 60.0), large.(font := "8px Tahoma"))]
  }

  /** The state in force after the labels. */
  function Labelled(c: Config, s: DrawState): DrawState
  {
    s.(font := "8px Tahoma", fillStyle := c.primaryColor)
  }

  /** Bar i itself, growing up from the bottom by `freqs[i + freqOffset]`, if that is defined. */
  function BarRect(c: Config, s: DrawState, h: real, freqs: seq<Byte>, i: nat): seq<DrawOp>
  {
    var barFill := if AtThreshold(c, At(freqs, i)) then c.secondaryColor else c.primaryColor;
    var height := At(freqs, i + c.freqOffset);
    if height.Some? then [FillRect(BarLeft(c, i), h - c.y, c.width, -(height.value as real), Labelled(c, s).(fillStyle := barFill))]
    else []
  }

  /** The cap of bar i, at the threshold height, in the secondary colour. */
  function Cap(c: Config, s: DrawState, h: real, i: nat): DrawOp
  {
    FillRect(BarLeft(c, i), h - c.y - c.threshold, c.width, c.thresholdHeight, Labelled(c, s).(fillStyle := c.secondaryColor))
  }

  /** The draw calls of bar i, made in drawing state s apart from the font and fill it sets itself. */
  function BarOps(c: Config, s: DrawState, h: real, freqs: seq<Byte>, i: nat): seq<DrawOp>
  {
    Labels(c, s, h, i) + BarRect(c, s, h, freqs, i) + [Cap(c, s, h, i)]
  }

  /** The draw calls of the first n bars. */
  function BarsOps(c: Config, s: DrawState, h: real, freqs: seq<Byte>, n: nat): seq<DrawOp>
  {
    if n == 0 then [] else BarsOps(c, s, h, freqs, n - 1) + BarOps(c, s, h, freqs, n - 1)
  }

  /** The drawing state after n bars: the last font and fill set stay in force. */
  function StateAfterBars(c: Config, s: DrawState, n: nat): DrawState
  {
    if n == 0 then s else s.(font := "8px Tahoma", fillStyle := c.secondaryColor)
  }

  /**
    * A bar's rectangle is drawn iff its height `freqs[i + freqOffset]` is
    * defined (a NaN height draws nothing), and it is filled with the
    * secondary colour iff `freqs[i]` reaches the threshold; its cap always
    * takes the secondary colour.
    */
  lemma BarColour(c: Config, s: DrawState, h: real, freqs: seq<Byte>, i: nat)
    ensures var ops := BarOps(c, s, h, freqs, i);
            (|ops| == 5 <==> 0 <= i + c.freqOffset < |freqs|) &&
            (|ops| == 5 ==> ops[3].FillRect? && ops[3].h == -(freqs[i + c.freqOffset] as real) &&
                            (ops[3].state.fillStyle == c.secondaryColor <==>
                               AtThreshold(c, At(freqs, i)) || c.primaryColor == c.secondaryColor)) &&
            ops[|ops| - 1].FillRect? && ops[|ops| - 1].state.fillStyle == c.secondaryColor
  {
  }

  /** With the default settings, bar i shows the secondary colour iff i is a bin whose value is at least 255. */
  lemma DefaultBarColour(s: DrawState, h: real, freqs: seq<Byte>, i: nat)
    requires i < |freqs|
    ensures var ops := BarOps(Default, s, h, freqs, i);
            |ops| == 5 && (ops[3].state.fillStyle == Default.secondaryColor <==> freqs[i] == 255)
  {
    BarColour(Default, s, h, freqs, i);
  }

  /** One overlay pass: the source's `update(time, vis, freqs)`, whose time argument is unused. */
  method Draw(c: Config, canvas: Context, w: real, h: real, freqs: seq<Byte>)
    requires Valid(c)
    modifies canvas
    ensures canvas.ops == old(canvas.ops) + BarsOps(c, old(canvas.current), h, freqs, BarCount(c, w))
    ensures canvas.current == StateAfterBars(c, old(canvas.current), BarCount(c, w))
    ensures canvas.saved == old(canvas.saved) && canvas.path == old(canvas.path)
  {
    var s := canvas.current;
    var amount := (w - c.x) / (c.width + c.spacing) - 2.0;
    var i: nat := 0;
    assert amount == Bound(c, w);
    while (i as real) < amount
      invariant i <= BarCount(c, w)
      invariant canvas.ops == old(canvas.ops) + BarsOps(c, s, h, freqs, i)
      invariant canvas.current == StateAfterBars(c, s, i)
      invariant canvas.saved == old(canvas.saved) && canvas.path == old(canvas.path)
      decreases BarCount(c, w) - i
    {
      ghost var before := canvas.current;
      DrawBar(c, canvas, h, freqs, i);
      AppendTwo(old(canvas.ops), BarsOps(c, s, h, freqs, i), BarOps(c, s, h, freqs, i));
      assert before.(font := "12px Tahoma", fillStyle := c.primaryColor)
             == s.(font := "12px Tahoma", fillStyle := c.primaryColor);
      assert Labelled(c, before) == Labelled(c, s);
      assert BarOps(c, before, h, freqs, i) == BarOps(c, s, h, freqs, i);
      i := i + 1;
    }
    LoopRunsBarCount(c, w, i);
  }

  /** The loop stops exactly after `BarCount` iterations. */
  lemma LoopRunsBarCount(c: Config, w: real, i: nat)
    requires Valid(c) && i <= BarCount(c, w) && (i as real) >= Bound(c, w)
    ensures i == BarCount(c, w)
  {
  }

  /** The body of the overlay's loop: three labels, the bar if its height is defined, its cap. */
  method DrawBar(c: Config, canvas: Context, h: real, freqs: seq<Byte>, i: nat)
    modifies canvas
    ensures canvas.ops == old(canvas.ops) + BarOps(c, old(canvas.current), h, freqs, i)
    ensures canvas.current == old(canvas.current).(font := "8px Tahoma", fillStyle := c.secondaryColor)
    ensures canvas.saved == old(canvas.saved) && canvas.path == old(canvas.path)
  {
    var freq := At(freqs, i);
    var x := BarLeft(c, i);
    var y := h - c.y;
    var bw := c.width;
    var height := At(freqs, i + c.freqOffset);
    DrawLabels(c, canvas, h, i);
    ghost var afterLabels := canvas.ops;

    if freq.Some? && freq.value as real >= c.threshold {
      canvas.SetFillStyle(c.secondaryColor);
    } else {
      canvas.SetFillStyle(c.primaryColor);
    }
    if height.Some? {
      canvas.FillRect(x, y, bw, -(height.value as real));
    }
    assert canvas.ops == afterLabels + BarRect(c, old(canvas.current), h, freqs, i);
    canvas.SetFillStyle(c.secondaryColor);
    canvas.FillRect(x, y - c.threshold, bw, c.thresholdHeight);
  }

  /** The three labels of bar i. */
  method DrawLabels(c: Config, canvas: Context, h: real, i: nat)
    modifies canvas
    ensures canvas.ops == old(canvas.ops) + Labels(c, old(canvas.current), h, i)
    ensures canvas.current == Labelled(c, old(canvas.current))
    ensures canvas.saved == old(canvas.saved) && canvas.path == old(canvas.path)
  {
    var x := BarLeft(c, i);
    canvas.SetFont("12px Tahoma");
    canvas.SetFillStyle(c.primaryColor);
    canvas.FillText(x + (c.width / 2.0) - 10.0, (h - c.threshold) - c.thresholdHeight - 10.0);
    canvas.FillText(x + (c.width / 2.0) - 10.0, (h - c.threshold) - c.thresholdHeight - 30.0);

    canvas.SetFont("8px Tahoma");
    var textY := (h - c.threshold) - c.thresholdHeight - (if i % 2 == 0 then 50.0 else 60.0);
    canvas.FillText(x + (c.width / 2.0) - 10.0, textY);
  }
}

=== FILE: canvas.dfy ===
/**
  * The part of a CanvasRenderingContext2D the visualiser uses: a current
  * drawing state (transform, fill and stroke style, line width, font), the
  * stack that `save`/`restore` push and pop, the current path, and the list
  * of draw calls made so far, each recorded with the drawing state in force
  * when it was made. Pixels are not modelled.
  */
module Canvas2D {

  /** One step of the current transform, in the order the calls were made. */
  datatype Step = Translate(dx: real, dy: real) | Rotate(degrees: real)

  datatype DrawState = DrawState(
    transform: seq<Step>,
    fillStyle: string,
    strokeStyle: string,
    lineWidth: real,
    font: string)

  /** A freshly created context: identity transform, black, 1px lines, 10px sans-serif. */
  function InitialState(): DrawState
  {
    DrawState([], "#000000", "#000000", 1.0, "10px sans-serif")
  }

  /** A piece of the current path, with the transform in force when it was added. */
  datatype PathSeg = Arc(cx: real, cy: real, radius: real, at: seq<Step>) | Close

  /** A recorded call. Text content is not modelled, only where it is drawn. */
  datatype DrawOp =
    | Save
    | Restore
    | ClearRect(x: real, y: real, w: real, h: real, state: DrawState)
    | FillRect(x: real, y: real, w: real, h: real, state: DrawState)
    | FillText(x: real, y: real, state: DrawState)
    | Stroke(path: seq<PathSeg>, state: DrawState)

  /** Sum of the rotation angles of a transform, in degrees. */
  function NetRotation(steps: seq<Step>): real
  {
    if steps == [] then 0.0
    else NetRotation(steps[..|steps| - 1]) + (match steps[|steps| - 1] case Rotate(d) => d case Translate(_, _) => 0.0)
  }

  /**
    * Sum of the horizontal and of the vertical translation arguments of a
    * transform, as given to `translate` (not mapped through the rotations
    * between them, so a zero sum is not a zero net displacement).
    */
  function ShiftSum(steps: seq<Step>): (real, real)
  {
    if steps == [] then (0.0, 0.0)
    else
      var (sx, sy) := ShiftSum(steps[..|steps| - 1]);
      match steps[|steps| - 1]
      case Translate(dx, dy) => (sx + dx, sy + dy)
      case Rotate(_) => (sx, sy)
  }

  /** Both sums are additive over concatenation. */
  lemma {:induction false} SumsOfConcat(a: seq<Step>, b: seq<Step>)
    ensures NetRotation(a + b) == NetRotation(a) + NetRotation(b)
    ensures ShiftSum(a + b).0 == ShiftSum(a).0 + ShiftSum(b).0
    ensures ShiftSum(a + b).1 == ShiftSum(a).1 + ShiftSum(b).1
    decreases |b|
  {
    if b == [] {
      assert a + b == a;
    } else {
      var b' := b[..|b| - 1];
      assert (a + b)[..|a + b| - 1] == a + b';
      assert (a + b)[|a + b| - 1] == b[|b| - 1];
      SumsOfConcat(a, b');
    }
  }

  /** The sums of a one-step transform. */
  lemma StepSums(s: Step)
    ensures NetRotation([s]) == (if s.Rotate? then s.degrees else 0.0)
    ensures ShiftSum([s]) == (if s.Translate? then (s.dx, s.dy) else (0.0, 0.0))
  {
    assert [s][..0] == [];
  }

  class Context {
    var current: DrawState
    var saved: seq<DrawState>
    var path: seq<PathSeg>
    var ops: seq<DrawOp>

    constructor()
      ensures current == InitialState() && saved == [] && path == [] && ops == []
    {
      current := InitialState();
      saved := [];
      path := [];
      ops := [];
    }

    /** Pushes a copy of the drawing state. */
    method Save()
      modifies this
      ensures saved == old(saved) + [old(current)]
      ensures current == old(current) && path == old(path)
      ensures ops == old(ops) + [DrawOp.Save]
    {
      saved := saved + [current];
      ops := ops + [DrawOp.Save];
    }

    /** Pops the last saved state back into force; with an empty stack it changes no state. */
    method Restore()
      modifies this
      ensures old(saved) == [] ==> saved == [] && current == old(current)
      ensures old(saved) != [] ==> current == old(saved)[|old(saved)| - 1] && saved == old(saved)[..|old(saved)| - 1]
      ensures path == old(path)
      ensures ops == old(ops) + [DrawOp.Restore]
    {
      if saved != [] {
        current := saved[|saved| - 1];
        saved := saved[..|saved| - 1];
      }
      ops := ops + [DrawOp.Restore];
    }

    method Translate(dx: real, dy: real)
      modifies this
      ensures current == old(current).(transform := old(current).transform + [Step.Translate(dx, dy)])
      ensures saved == old(saved) && path == old(path) && ops == old(ops)
    {
      current := current.(transform := current.transform + [Step.Translate(dx, dy)]);
    }

    method Rotate(degrees: real)
      modifies this
      ensures current == old(current).(transform := old(current).transform + [Step.Rotate(degrees)])
      ensures saved == old(saved) && path == old(path) && ops == old(ops)
    {
      current := current.(transform := current.transform + [Step.Rotate(degrees)]);
    }

    method SetFillStyle(style: string)
      modifies this
      ensures current == old(current).(fillStyle := style)
      ensures saved == old(saved) && path == old(path) && ops == old(ops)
    {
      current := current.(fillStyle := style);
    }

    method SetStrokeStyle(style: string)
      modifies this
      ensures current == old(current).(strokeStyle := style)
      ensures saved == old(saved) && path == old(path) && ops == old(ops)
    {
      current := current.(strokeStyle := style);
    }

    /** Setting a line width that is not positive is ignored. */
    method SetLineWidth(width: real)
      modifies this
      ensures current == old(current).(lineWidth := LineWidthAfter(old(current).lineWidth, width))
      ensures saved == old(saved) && path == old(path) && ops == old(ops)
    {
      if width > 0.0 {
        current := current.(lineWidth := width);
      }
    }

    method SetFont(font: string)
      modifies this
      ensures current == old(current).(font := font)
      ensures saved == old(saved) && path == old(path) && ops == old(ops)
    {
      current := current.(font := font);
    }

    method ClearRect(x: real, y: real, w: real, h: real)
      modifies this
      ensures ops == old(ops) + [DrawOp.ClearRect(x, y, w, h, old(current))]
      ensures current == old(current) && saved == old(saved) && path == old(path)
    {
      ops := ops + [DrawOp.ClearRect(x, y, w, h, current)];
    }

    method FillRect(x: real, y: real, w: real, h: real)
      modifies this
      ensures ops == old(ops) + [DrawOp.FillRect(x, y, w, h, old(current))]
      ensures current == old(current) && saved == old(saved) && path == old(path)
    {
      ops := ops + [DrawOp.FillRect(x, y, w, h, current)];
    }

    method FillText(x: real, y: real)
      modifies this
      ensures ops == old(ops) + [DrawOp.FillText(x, y, old(current))]
      ensures current == old(current) && saved == old(saved) && path == old(path)
    {
      ops := ops + [DrawOp.FillText(x, y, current)];
    }

    method BeginPath()
      modifies this
      ensures path == []
      ensures current == old(current) && saved == old(saved) && ops == old(ops)
    {
      path := [];
    }

    /** A full circle: only the centre and radius matter to the visualiser. */
    method Arc(cx: real, cy: real, radius: real)
      modifies this
      ensures path == old(path) + [PathSeg.Arc(cx, cy, radius, old(current).transform)]
      ensures current == old(current) && saved == old(saved) && ops == old(ops)
    {
      path := path + [PathSeg.Arc(cx, cy, radius, current.transform)];
    }

    method ClosePath()
      modifies this
      ensures path == old(path) + [Close]
      ensures current == old(current) && saved == old(saved) && ops == old(ops)
    {
      path := path + [Close];
    }

    method Stroke()
      modifies this
      ensures ops == old(ops) + [DrawOp.Stroke(old(path), old(current))]
      ensures current == old(current) && saved == old(saved) && path == old(path)
    {
      ops := ops + [DrawOp.Stroke(path, current)];
    }
  }

  /** The line width after assigning `width`: non-positive values are ignored. */
  function LineWidthAfter(before: real, width: real): (r: real)
    ensures width > 0.0 ==> r == width
    ensures width <= 0.0 ==> r == before
  {
    if width > 0.0 then width else before
  }

  /** Appending two pieces one by one is appending their concatenation. */
  lemma AppendTwo<T>(ops: seq<T>, a: seq<T>, b: seq<T>)
    ensures ops + a + b == ops + (a + b)
  {
  }

  /** Appending four pieces one by one is appending their concatenation. */
  lemma AppendFour<T>(ops: seq<T>, a: seq<T>, b: seq<T>, c: seq<T>, d: seq<T>)
    ensures ops + a + b + c + d == ops + (a + b + c + d)
  {
  }
}

=== FILE: circular.dfy ===
/**
  * The CircularBars module (js/modules/circular.js): every frame it clears
  * and fills the canvas, draws `amount` bars around the centre, each one
  * rotated a further `totalAngle / amount` degrees, then strokes a ring whose
  * radius follows the mean amplitude, and optionally advances `totalAngle`.
  *
  * Angles are kept in degrees: the source converts with `PI / 180` before
  * every `rotate`, which is the same rotation.
  */
module Circular {
  import opened JsNumbers
  import opened Canvas2D

  const Background: string := "#001027"
  const ArcIntrude: real := 40.0
  const MinRing: real := 20.0
  const MaxAngle: int := 100000
  const WrapAngle: int := 720

  // ---------------------------------------------------------------------
  // Geometry of one frame

  /** Drawn length of a bar for amplitude f, `Math.max(f / 2, 5)`. */
  function BarLength(f: Byte): (r: real)
    ensures r >= 5.0 && r >= f as real / 2.0
    ensures r == 5.0 || r == f as real / 2.0
  {
    if f as real / 2.0 > 5.0 then f as real / 2.0 else 5.0
  }

  /** Every third bar except bar 0 has its start moved by `-intrude` along its axis. */
  predicate IsAccent(i: nat)
  {
    i != 0 && i % 3 == 0
  }

  function Radius(w: real): real { w / 8.0 }
  function Intrude(w: real): real { w / 100.0 }
  function BarHeight(w: real): real { w / 200.0 }

  /** Where a bar starts along its rotated axis, before the accent shift. */
  function BaseOffset(inward: bool, w: real): real
  {
    if inward then -Radius(w) else Radius(w)
  }

  function BarX(inward: bool, w: real, i: nat): real
  {
    if IsAccent(i) then BaseOffset(inward, w) - Intrude(w) else BaseOffset(inward, w)
  }

  /**
    * On a canvas of positive width a bar's start is moved by `-intrude`
    * along its axis exactly when it is an accent bar (towards the centre
    * when the bars point outward, away from it when they point inward),
    * bar 0 never is, and the base offset is the radius on the side
    * `inward` selects.
    */
  lemma BarPlacement(inward: bool, w: real, i: nat)
    requires w > 0.0
    ensures BarX(inward, w, i) < BaseOffset(inward, w) <==> IsAccent(i)
    ensures BarX(inward, w, 0) == BaseOffset(inward, w)
    ensures BaseOffset(inward, w) < 0.0 <==> inward
    ensures BaseOffset(inward, w) == w / 8.0 || BaseOffset(inward, w) == -(w / 8.0)
  {
  }

  /** `Math.max(Math.min(avg / 255 * radius, radius - 40), 20)`. */
  function RingRadius(avg: real, radius: real): (r: real)
    ensures r >= MinRing
    ensures radius - ArcIntrude >= MinRing ==> r <= radius - ArcIntrude
    ensures radius - ArcIntrude < MinRing ==> r == MinRing
    ensures MinRing <= avg / 255.0 * radius <= radius - ArcIntrude ==> r == avg / 255.0 * radius
  {
    var scaled := avg / 255.0 * radius;
    var inner := if scaled < radius - ArcIntrude then scaled else radius - ArcIntrude;
    if inner > MinRing then inner else MinRing
  }

  /** Sum of the amplitudes, accumulated front to back as the source's loop does. */
  function Sum(s: seq<Byte>): (r: int)
    ensures 0 <= r <= 255 * |s|
  {
    if s == [] then 0 else Sum(s[..|s| - 1]) + s[|s| - 1]
  }

  /** The arithmetic mean of at least one amplitude lies within the byte range. */
  function Mean(s: seq<Byte>): (r: real)
    requires |s| > 0
    ensures 0.0 <= r <= 255.0
    ensures r * |s| as real == Sum(s) as real
  {
    var n := |s| as real;
    QuotientBounds(Sum(s) as real, n);
    Sum(s) as real / n
  }

  /** For 0 <= a <= 255 n, the quotient a / n lies in [0, 255] and times n gives a back. */
  lemma QuotientBounds(a: real, n: real)
    requires n > 0.0 && 0.0 <= a <= 255.0 * n
    ensures 0.0 <= a / n <= 255.0
    ensures a / n * n == a
  {
    var q := a / n;
    assert q * n == a;
  }

  /** The per-bar rotation, `totalAngle / amount` degrees. */
  function BarAngle(totalAngle: int, amount: nat): real
    requires amount > 0
  {
    totalAngle as real / amount as real
  }

  /** n rotations by the same angle. */
  function Rotations(angle: real, n: nat): (r: seq<Step>)
    ensures |r| == n
  {
    if n == 0 then [] else Rotations(angle, n - 1) + [Rotate(angle)]
  }

  lemma RotationsTurn(angle: real, n: nat)
    ensures NetRotation(Rotations(angle, n)) == n as real * angle
    ensures ShiftSum(Rotations(angle, n)) == (0.0, 0.0)
  {
    RotationsNet(angle, n);
    TimesIsProduct(angle, n);
    RotationsShift(angle, n);
  }

  /** `angle` added up n times. */
  function Times(angle: real, n: nat): real
  {
    if n == 0 then 0.0 else Times(angle, n - 1) + angle
  }

  lemma {:induction false} TimesIsProduct(angle: real, n: nat)
    ensures Times(angle, n) == n as real * angle
  {
    if n > 0 {
      TimesIsProduct(angle, n - 1);
      var m := (n - 1) as real;
      assert n as real * angle == m * angle + angle;
    }
  }

  lemma {:induction false} RotationsNet(angle: real, n: nat)
    ensures NetRotation(Rotations(angle, n)) == Times(angle, n)
  {
    if n > 0 {
      RotationsNet(angle, n - 1);
      SumsOfConcat(Rotations(angle, n - 1), [Rotate(angle)]);
      StepSums(Rotate(angle));
    }
  }

  lemma {:induction false} RotationsShift(angle: real, n: nat)
    ensures ShiftSum(Rotations(angle, n)) == (0.0, 0.0)
  {
    if n > 0 {
      RotationsShift(angle, n - 1);
      SumsOfConcat(Rotations(angle, n - 1), [Rotate(angle)]);
      StepSums(Rotate(angle));
    }
  }

  /** The state the bar loop starts from: both colours set, origin moved to the centre. */
  function Centered(s0: DrawState, color: string, w: real, h: real): DrawState
  {
    s0.(fillStyle := color, strokeStyle := color, transform := s0.transform + [Translate(w / 2.0, h / 2.0)])
  }

  /** The first n bars, each drawn after its own rotation. */
  function BarOps(c: DrawState, angle: real, inward: bool, w: real, freqs: seq<Byte>, n: nat): (r: seq<DrawOp>)
    requires n <= |freqs|
    ensures |r| == n
  {
    if n == 0 then []
    else
      BarOps(c, angle, inward, w, freqs, n - 1) +
      [FillRect(BarX(inward, w, n - 1), -(BarHeight(w) / 2.0), BarLength(freqs[n - 1]), BarHeight(w),
                c.(transform := c.transform + Rotations(angle, n)))]
  }

  /** Bar k is drawn k + 1 rotations in, at its offset, with its amplitude's length. */
  lemma {:induction false} BarOpAt(c: DrawState, angle: real, inward: bool, w: real, freqs: seq<Byte>, n: nat, k: nat)
    requires n <= |freqs| && k < n
    ensures BarOps(c, angle, inward, w, freqs, n)[k]
            == FillRect(BarX(inward, w, k), -(BarHeight(w) / 2.0), BarLength(freqs[k]), BarHeight(w),
                        c.(transform := c.transform + Rotations(angle, k + 1)))
  {
    if k < n - 1 {
      BarOpAt(c, angle, inward, w, freqs, n - 1, k);
    }
  }

  /** The transform in force when the ring is added: one translation back and one forward after the bars. */
  function RingTransform(c: DrawState, angle: real, amount: nat, w: real, h: real): seq<Step>
  {
    c.transform + Rotations(angle, amount) + [Translate(-w / 2.0, -h / 2.0), Translate(w / 2.0, h / 2.0)]
  }

  function Ring(amount: nat, w: real, freqs: seq<Byte>): real
    requires 0 < amount <= |freqs|
  {
    RingRadius(Mean(freqs[..amount]), Radius(w))
  }

  function StrokeState(c: DrawState, angle: real, amount: nat, w: real, h: real): DrawState
  {
    c.(transform := RingTransform(c, angle, amount, w, h), lineWidth := LineWidthAfter(c.lineWidth, w / 300.0))
  }

  function FramePath(c: DrawState, angle: real, amount: nat, w: real, h: real, freqs: seq<Byte>): seq<PathSeg>
    requires 0 < amount <= |freqs|
  {
    [PathSeg.Arc(0.0, 0.0, Ring(amount, w, freqs), RingTransform(c, angle, amount, w, h)), Close]
  }

  /** Every draw call of one frame, in order. */
  function FrameOps(amount: nat, inward: bool, totalAngle: int, color: string,
                    s0: DrawState, w: real, h: real, freqs: seq<Byte>): seq<DrawOp>
    requires 0 < amount <= |freqs|
  {
    var c := Centered(s0, color, w, h);
    var angle := BarAngle(totalAngle, amount);
    [ClearRect(0.0, 0.0, w, h, s0), FillRect(0.0, 0.0, w, h, s0.(fillStyle := Background))]
    + BarOps(c, angle, inward, w, freqs, amount)
    + [Stroke(FramePath(c, angle, amount, w, h, freqs), StrokeState(c, angle, amount, w, h))]
  }

  /** The drawing state a frame leaves behind. */
  function FrameEnd(amount: nat, totalAngle: int, color: string, s0: DrawState, w: real, h: real): DrawState
    requires amount > 0
  {
    var c := Centered(s0, color, w, h);
    var st := StrokeState(c, BarAngle(totalAngle, amount), amount, w, h);
    st.(transform := st.transform + [Translate(-w / 2.0, -h / 2.0)])
  }

  /**
    * A frame undoes every translation it makes but none of its rotations:
    * what it adds to the transform turns by `totalAngle` degrees in all and
    * its translation arguments sum to zero.
    */
  lemma {:induction false} ResidualTransform(amount: nat, totalAngle: int, color: string, s0: DrawState, w: real, h: real)
    requires amount > 0
    ensures var t := FrameEnd(amount, totalAngle, color, s0, w, h).transform;
            |t| >= |s0.transform| && t[..|s0.transform|] == s0.transform &&
            NetRotation(t[|s0.transform|..]) == totalAngle as real &&
            ShiftSum(t[|s0.transform|..]) == (0.0, 0.0)
  {
    var angle := BarAngle(totalAngle, amount);
    var rots := Rotations(angle, amount);
    var fwd, bwd := Translate(w / 2.0, h / 2.0), Translate(-w / 2.0, -h / 2.0);
    var t := FrameEnd(amount, totalAngle, color, s0, w, h).transform;
    var rest := [fwd] + rots + [bwd] + [fwd] + [bwd];
    assert t == s0.transform + [fwd] + rots + [bwd, fwd] + [bwd];
    assert t == s0.transform + rest;
    assert t[|s0.transform|..] == rest;
    RotationsTurn(angle, amount);
    assert amount as real * angle == totalAngle as real;
    OpenCloseSums(rots, w / 2.0, h / 2.0);
  }

  /** Moving to the centre and back twice around a pure rotation adds no shift and no turn. */
  lemma OpenCloseSums(rots: seq<Step>, dx: real, dy: real)
    requires ShiftSum(rots) == (0.0, 0.0)
    ensures var fwd, bwd := Translate(dx, dy), Translate(-dx, -dy);
            var rest := [fwd] + rots + [bwd] + [fwd] + [bwd];
            NetRotation(rest) == NetRotation(rots) && ShiftSum(rest) == (0.0, 0.0)
  {
    var fwd, bwd := Translate(dx, dy), Translate(-dx, -dy);
    StepSums(fwd);
    StepSums(bwd);
    var a := [fwd] + rots;
    SumsOfConcat([fwd], rots);
    assert NetRotation(a) == NetRotation(rots) && ShiftSum(a) == (dx, dy);
    var b := a + [bwd];
    SumsOfConcat(a, [bwd]);
    assert NetRotation(b) == NetRotation(rots) && ShiftSum(b) == (0.0, 0.0);
    var c := b + [fwd];
    SumsOfConcat(b, [fwd]);
    assert NetRotation(c) == NetRotation(rots) && ShiftSum(c) == (dx, dy);
    SumsOfConcat(c, [bwd]);
  }

  // ---------------------------------------------------------------------
  // Auto-rotation

  /** `totalAngle` after one frame: one degree more with auto-rotation, back to 720 past 100000. */
  function NextTotalAngle(autoRotate: bool, angle: int): (r: int)
    ensures !autoRotate ==> r == angle
    ensures autoRotate && angle < MaxAngle ==> r == angle + 1
    ensures autoRotate && angle >= MaxAngle ==> r == WrapAngle
    ensures angle <= MaxAngle ==> r <= MaxAngle
  {
    if !autoRotate then angle
    else if angle + 1 > MaxAngle then WrapAngle
    else angle + 1
  }

  /** `totalAngle` after k frames. */
  function AngleAfter(autoRotate: bool, angle: int, k: nat): int
    decreases k
  {
    if k == 0 then angle else AngleAfter(autoRotate, NextTotalAngle(autoRotate, angle), k - 1)
  }

  /** Starting from the default 360 or any angle up to 100000, the angle stays within [min(angle, 720), 100000]. */
  lemma {:induction false} AngleStaysBounded(autoRotate: bool, angle: int, k: nat)
    requires angle <= MaxAngle
    ensures var a := AngleAfter(autoRotate, angle, k);
            a <= MaxAngle && (a >= angle || a >= WrapAngle)
    ensures !autoRotate ==> AngleAfter(autoRotate, angle, k) == angle
    decreases k
  {
    if k > 0 {
      var next := NextTotalAngle(autoRotate, angle);
      AngleStaysBounded(autoRotate, next, k - 1);
    }
  }

  /** With auto-rotation on, k frames add k degrees as long as the angle does not pass 100000. */
  lemma {:induction false} CountsUp(angle: int, k: nat)
    requires angle + k <= MaxAngle
    ensures AngleAfter(true, angle, k) == angle + k
    decreases k
  {
    if k > 0 {
      CountsUp(angle + 1, k - 1);
    }
  }

  /** With auto-rotation on, an angle counts up one per frame to 100000 and then wraps to 720. */
  lemma {:induction false} WrapsAfter(angle: int)
    requires angle <= MaxAngle
    ensures AngleAfter(true, angle, MaxAngle + 1 - angle) == WrapAngle
    decreases MaxAngle - angle
  {
    if angle < MaxAngle {
      WrapsAfter(angle + 1);
    }
  }

  // ---------------------------------------------------------------------
  // The module object

  class CircularBars {
    var amount: nat
    var inward: bool
    var totalAngle: int
    var autoRotate: bool
    var secondaryColor: string

    constructor()
      ensures amount == 100 && !inward && totalAngle == 360 && !autoRotate
      ensures secondaryColor == "#ba88bf"
    {
      amount := 100;
      inward := false;
      totalAngle := 360;
      autoRotate := false;
      secondaryColor := "#ba88bf";
    }

    /** One frame: the source's `update(t, vis, freqs)`; the time argument is unused there. */
    method Update(canvas: Context, w: real, h: real, freqs: seq<Byte>)
      requires 0 < amount <= |freqs|
      modifies this`totalAngle, canvas
      ensures totalAngle == NextTotalAngle(autoRotate, old(totalAngle))
      ensures canvas.ops == old(canvas.ops)
                            + FrameOps(amount, inward, old(totalAngle), secondaryColor, old(canvas.current), w, h, freqs)
      ensures canvas.current == FrameEnd(amount, old(totalAngle), secondaryColor, old(canvas.current), w, h)
      ensures canvas.saved == old(canvas.saved)
      ensures canvas.path == FramePath(Centered(old(canvas.current), secondaryColor, w, h),
                                       BarAngle(old(totalAngle), amount), amount, w, h, freqs)
    {
      var s0 := canvas.current;
      ghost var c := Centered(s0, secondaryColor, w, h);
      var angle := BarAngle(totalAngle, amount);

      ClearToBackground(canvas, w, h);
      ghost var opening := [ClearRect(0.0, 0.0, w, h, s0), FillRect(0.0, 0.0, w, h, s0.(fillStyle := Background))];

      DrawBars(canvas, angle, w, freqs);
      ghost var bars := BarOps(c, angle, inward, w, freqs, amount);
      canvas.Translate(-w / 2.0, -h / 2.0);

      var avg := AverageAmplitude(freqs);

      assert canvas.current.transform + [Translate(w / 2.0, h / 2.0)] == RingTransform(c, angle, amount, w, h);
      DrawRing(canvas, w, h, RingRadius(avg, Radius(w)));
      assert canvas.path == FramePath(c, angle, amount, w, h, freqs);
      assert canvas.ops == old(canvas.ops) + opening + bars
                           + [Stroke(FramePath(c, angle, amount, w, h, freqs), StrokeState(c, angle, amount, w, h))];
      assert FrameOps(amount, inward, totalAngle, secondaryColor, s0, w, h, freqs)
             == opening + bars + [Stroke(FramePath(c, angle, amount, w, h, freqs), StrokeState(c, angle, amount, w, h))];

      if autoRotate {
        totalAngle := totalAngle + 1;
        if totalAngle > MaxAngle {
          totalAngle := WrapAngle;
        }
      }
    }

    /** The frame's opening: clear, paint the background, pick the bar colour, move to the centre. */
    method ClearToBackground(canvas: Context, w: real, h: real)
      modifies canvas
      ensures var s0 := old(canvas.current);
              canvas.ops == old(canvas.ops) + [ClearRect(0.0, 0.0, w, h, s0), FillRect(0.0, 0.0, w, h, s0.(fillStyle := Background))] &&
              canvas.current == Centered(s0, secondaryColor, w, h)
      ensures canvas.saved == old(canvas.saved) && canvas.path == old(canvas.path)
    {
      canvas.ClearRect(0.0, 0.0, w, h);
      canvas.SetFillStyle(Background);
      canvas.FillRect(0.0, 0.0, w, h);
      canvas.SetFillStyle(secondaryColor);
      canvas.SetStrokeStyle(secondaryColor);
      canvas.Translate(w / 2.0, h / 2.0);
    }

    /** The rotate/fillRect loop: one further rotation, then one bar, per iteration. */
    method DrawBars(canvas: Context, angle: real, w: real, freqs: seq<Byte>)
      requires amount <= |freqs|
      modifies canvas
      ensures canvas.ops == old(canvas.ops) + BarOps(old(canvas.current), angle, inward, w, freqs, amount)
      ensures canvas.current == old(canvas.current).(transform := old(canvas.current).transform + Rotations(angle, amount))
      ensures canvas.saved == old(canvas.saved) && canvas.path == old(canvas.path)
    {
      var c := canvas.current;
      var radius := Radius(w);
      var height := BarHeight(w);
      var intrude := Intrude(w);
      var i := 0;
      while i < amount
        invariant 0 <= i <= amount
        invariant canvas.current == c.(transform := c.transform + Rotations(angle, i))
        invariant canvas.saved == old(canvas.saved) && canvas.path == old(canvas.path)
        invariant canvas.ops == old(canvas.ops) + BarOps(c, angle, inward, w, freqs, i)
      {
        canvas.Rotate(angle);
        assert c.transform + Rotations(angle, i) + [Rotate(angle)] == c.transform + Rotations(angle, i + 1);
        var x := if inward then -radius else radius;
        if i != 0 && i % 3 == 0 {
          canvas.FillRect(x - intrude, -(height / 2.0), BarLength(freqs[i]), height);
        } else {
          canvas.FillRect(x, -(height / 2.0), BarLength(freqs[i]), height);
        }
        i := i + 1;
      }
    }

    /** The ring: a full circle about the centre, stroked with a width of w / 300. */
    method DrawRing(canvas: Context, w: real, h: real, ring: real)
      modifies canvas
      ensures var s := old(canvas.current);
              var at := s.transform + [Translate(w / 2.0, h / 2.0)];
              var stroked := s.(transform := at, lineWidth := LineWidthAfter(s.lineWidth, w / 300.0));
              canvas.path == [PathSeg.Arc(0.0, 0.0, ring, at), Close] &&
              canvas.ops == old(canvas.ops) + [Stroke(canvas.path, stroked)] &&
              canvas.current == stroked.(transform := at + [Translate(-w / 2.0, -h / 2.0)])
      ensures canvas.saved == old(canvas.saved)
    {
      canvas.Translate(w / 2.0, h / 2.0);
      canvas.BeginPath();
      canvas.Arc(0.0, 0.0, ring);
      canvas.ClosePath();
      canvas.SetLineWidth(w / 300.0);
      canvas.Stroke();
      canvas.Translate(-w / 2.0, -h / 2.0);
    }

    /** The averaging loop: the mean amplitude of the first `amount` bins. */
    method AverageAmplitude(freqs: seq<Byte>) returns (avg: real)
      requires 0 < amount <= |freqs|
      ensures avg == Mean(freqs[..amount])
      ensures 0.0 <= avg <= 255.0
    {
      var sum: int := 0;
      for j := 0 to amount
        invariant sum == Sum(freqs[..j])
      {
        assert freqs[..j + 1][..j] == freqs[..j];
        sum := sum + freqs[j];
      }
      assert freqs[..amount][..amount] == freqs[..amount];
      avg := sum as real / amount as real;
    }
  }
}

=== FILE: framerate.dfy ===
/**
  * The frames-per-second readout of the Visualizer (js/Visualizer.js:104-114):
  * at most twice a second the rate is recomputed from the time since the
  * previous frame, and every running frame records its time.
  */
module FrameRate {

  /** `1 / delta` as JavaScript computes it: a zero delta gives Infinity. */
  datatype Fps = Rate(perSecond: real) | Infinity

  function FpsOf(delta: real): (r: Fps)
    ensures r.Infinity? <==> delta == 0.0
    ensures r.Rate? ==> r.perSecond * delta == 1.0
    ensures r.Rate? && delta > 0.0 ==> r.perSecond > 0.0
  {
    if delta == 0.0 then Infinity else Rate(1.0 / delta)
  }

  /** The readout is recomputed only when more than half a second has passed since the last recomputation. */
  predicate FpsDue(lastFpsDraw: real, now: real)
  {
    now - lastFpsDraw > 0.5
  }

  datatype Timing = Timing(lastTime: real, lastFpsDraw: real, fps: Fps)

  /** The timing fields after one running frame at time `now`. */
  function FpsStep(t: Timing, showFps: bool, now: real): (r: Timing)
    ensures r.lastTime == now
    ensures showFps && FpsDue(t.lastFpsDraw, now) ==> r.lastFpsDraw == now && r.fps == FpsOf(now - t.lastTime)
    ensures !(showFps && FpsDue(t.lastFpsDraw, now)) ==> r.lastFpsDraw == t.lastFpsDraw && r.fps == t.fps
  {
    var recomputed := if showFps && FpsDue(t.lastFpsDraw, now)
                      then t.(lastFpsDraw := now, fps := FpsOf(now - t.lastTime))
                      else t;
    recomputed.(lastTime := now)
  }

  /** The timing after frames at the given times, and how many of them recomputed the rate. */
  function FpsRun(t: Timing, showFps: bool, times: seq<real>): (Timing, nat)
    decreases |times|
  {
    if times == [] then (t, 0)
    else
      var recomputes := showFps && FpsDue(t.lastFpsDraw, times[0]);
      var (last, n) := FpsRun(FpsStep(t, showFps, times[0]), showFps, times[1..]);
      (last, n + (if recomputes then 1 else 0))
  }

  /**
    * Whatever the frame times, k recomputations move `lastFpsDraw` forward
    * by more than k half-seconds, so the rate changes at most twice per
    * second; with the readout off it never changes.
    */
  lemma {:induction false} FpsCadence(t: Timing, showFps: bool, times: seq<real>)
    ensures var (last, n) := FpsRun(t, showFps, times);
            (n == 0 ==> last.lastFpsDraw == t.lastFpsDraw && last.fps == t.fps) &&
            (n > 0 ==> last.lastFpsDraw - t.lastFpsDraw > 0.5 * n as real) &&
            (!showFps ==> n == 0)
    decreases |times|
  {
    if times != [] {
      FpsCadence(FpsStep(t, showFps, times[0]), showFps, times[1..]);
    }
  }

  /** Frames no later than one second after the last recomputation recompute the rate at most once. */
  lemma OnceWithinASecond(t: Timing, showFps: bool, times: seq<real>)
    requires forall k :: 0 <= k < |times| ==> times[k] <= t.lastFpsDraw + 1.0
    ensures FpsRun(t, showFps, times).1 <= 1
  {
    FpsCadence(t, showFps, times);
    var (last, n) := FpsRun(t, showFps, times);
    if n > 0 {
      LastDrawIsAFrameTime(t, showFps, times);
    }
  }

  /** Frames whose times all lie in one second `[start, start + 1]` recompute the rate at most twice, whatever the timing before. */
  lemma {:induction false} AtMostTwicePerSecond(t: Timing, showFps: bool, times: seq<real>, start: real)
    requires forall k :: 0 <= k < |times| ==> start <= times[k] <= start + 1.0
    ensures FpsRun(t, showFps, times).1 <= 2
    decreases |times|
  {
    if times != [] {
      var next := FpsStep(t, showFps, times[0]);
      if showFps && FpsDue(t.lastFpsDraw, times[0]) {
        OnceWithinASecond(next, showFps, times[1..]);
      } else {
        AtMostTwicePerSecond(next, showFps, times[1..], start);
      }
    }
  }

  /** The bound of two is reached: frames at 1 and 2 seconds after a start at 0 both recompute the rate. */
  lemma TwiceIsReached()
    ensures FpsRun(Timing(0.0, 0.0, Rate(0.0)), true, [1.0, 2.0]).1 == 2
  {
    var t1 := FpsStep(Timing(0.0, 0.0, Rate(0.0)), true, 1.0);
    assert t1.lastFpsDraw == 1.0;
    assert [1.0, 2.0][1..] == [2.0];
  }

  /** After at least one recomputation, `lastFpsDraw` is one of the frame times. */
  lemma {:induction false} LastDrawIsAFrameTime(t: Timing, showFps: bool, times: seq<real>)
    requires FpsRun(t, showFps, times).1 > 0
    ensures exists k :: 0 <= k < |times| && FpsRun(t, showFps, times).0.lastFpsDraw == times[k]
    decreases |times|
  {
    var t' := FpsStep(t, showFps, times[0]);
    var (last, n) := FpsRun(t', showFps, times[1..]);
    if n > 0 {
      LastDrawIsAFrameTime(t', showFps, times[1..]);
      var k :| 0 <= k < |times[1..]| && last.lastFpsDraw == times[1..][k];
      assert last.lastFpsDraw == times[k + 1];
    } else {
      FpsCadence(t', showFps, times[1..]);
      assert last.lastFpsDraw == times[0];
    }
  }
}

=== FILE: helpers.dfy ===
/**
  * The numeric and colour helpers the Visualizer hands to every module
  * (js/Visualizer.js:42-63): `R` builds an rgba() colour with a clamped
  * alpha, `interp` blends two 24-bit colours channel by channel with two
  * bit masks, and `l` interpolates linearly between two numbers.
  */
module Helpers {
  import opened JsNumbers

  // ---------------------------------------------------------------------
  // R(r, g, b, a): the four fields of the `rgba(...)` string it returns

  datatype Rgba = Rgba(red: int, green: int, blue: int, alpha: real)

  predicate InInt32Range(x: real)
  {
    -(TwoTo31 as real) <= x < TwoTo31 as real
  }

  /** n is x with its fractional part dropped (rounded toward zero). */
  predicate TruncatedFrom(n: int, x: real)
  {
    (0.0 <= x ==> n as real <= x < n as real + 1.0) &&
    (x < 0.0 ==> n as real - 1.0 < x <= n as real)
  }

  /** An omitted alpha is 1, and alpha is clamped into [0, 1]. */
  function ClampAlpha(a: Option<real>): (r: real)
    ensures 0.0 <= r <= 1.0
    ensures a.None? ==> r == 1.0
    ensures a.Some? && a.value > 1.0 ==> r == 1.0
    ensures a.Some? && a.value < 0.0 ==> r == 0.0
    ensures a.Some? && 0.0 <= a.value <= 1.0 ==> r == a.value
  {
    var v := if a.None? then 1.0 else a.value;
    if v > 1.0 then 1.0 else if v < 0.0 then 0.0 else v
  }

  /** `R(r, g, b, a)`: the channels pass through `|0`, the alpha is clamped. */
  function R(r: real, g: real, b: real, a: Option<real>): (c: Rgba)
    ensures 0.0 <= c.alpha <= 1.0
    ensures a.None? ==> c.alpha == 1.0
    ensures a.Some? && a.value > 1.0 ==> c.alpha == 1.0
    ensures a.Some? && a.value < 0.0 ==> c.alpha == 0.0
    ensures a.Some? && 0.0 <= a.value <= 1.0 ==> c.alpha == a.value
    ensures InInt32Range(r) ==> TruncatedFrom(c.red, r)
    ensures InInt32Range(g) ==> TruncatedFrom(c.green, g)
    ensures InInt32Range(b) ==> TruncatedFrom(c.blue, b)
  {
    Rgba(ToInt32(r), ToInt32(g), ToInt32(b), ClampAlpha(a))
  }

  /** Feeding R's own output back into it gives the same colour. */
  lemma RFixedPoint(r: real, g: real, b: real, a: Option<real>)
    ensures var c := R(r, g, b, a);
            R(c.red as real, c.green as real, c.blue as real, Some(c.alpha)) == c
  {
    var c := R(r, g, b, a);
    IntegerTruncates(c.red);
    IntegerTruncates(c.green);
    IntegerTruncates(c.blue);
  }

  lemma IntegerTruncates(n: int)
    requires -(TwoTo31 as int) <= n < TwoTo31
    ensures ToInt32(n as real) == n
  {
    assert Trunc(n as real) == n;
  }

  // ---------------------------------------------------------------------
  // interp(a, b, lerp) with lerp = f2 / 256

  const Mask1 := 0xff00ff
  const Mask2 := 0x00ff00

  /** The three 8-bit channels of the low 24 bits of a colour number. */
  function Red(c: int): Byte { c / 0x1_0000 % 256 }
  function Green(c: int): Byte { c / 0x100 % 256 }
  function Blue(c: int): Byte { c % 256 }

  /** One channel of the blend: the weighted mean of the two input channels, rounded down. */
  function Mix(x: Byte, y: Byte, f2: int): (r: Byte)
    requires 0 <= f2 <= 256
    ensures x <= y ==> x <= r <= y
    ensures y <= x ==> y <= r <= x
  {
    MixBounds(x, y, f2);
    (x * (256 - f2) + y * f2) / 256
  }

  lemma MixBounds(x: Byte, y: Byte, f2: int)
    requires 0 <= f2 <= 256
    ensures x <= y ==> 256 * x <= x * (256 - f2) + y * f2 <= 256 * y
    ensures y <= x ==> 256 * y <= x * (256 - f2) + y * f2 <= 256 * x
  {
    assert x * (256 - f2) + y * f2 == 256 * x + f2 * (y - x);
    if x <= y {
      MulNonneg(f2, y - x);
      MulMono(f2, 256, y - x);
    } else {
      MulNonneg(f2, x - y);
      MulMono(f2, 256, x - y);
      assert f2 * (y - x) == -(f2 * (x - y));
    }
  }

  /**
    * `interp(a, b, f2 / 256)` exactly as written: both colours are masked
    * into a red+blue lane and a green lane, each lane is blended with one
    * pair of multiplications, shifted down by 8 and masked again, and the
    * lanes are ORed back together.
    */
  function Interp(a: int, b: int, f2: int): (r: int)
    requires 0 <= f2 <= 256
    ensures 0 <= r < TwoTo24
    ensures Red(r) == Mix(Red(a), Red(b), f2)
    ensures Green(r) == Mix(Green(a), Green(b), f2)
    ensures Blue(r) == Mix(Blue(a), Blue(b), f2)
  {
    var f1 := 256 - f2;
    var redBlue := BitAnd(ShiftRight(BitAnd(a, Mask1) * f1 + BitAnd(b, Mask1) * f2, 8), Mask1);
    var green := BitAnd(ShiftRight(BitAnd(a, Mask2) * f1 + BitAnd(b, Mask2) * f2, 8), Mask2);
    RedBlueLane(a, b, f2);
    GreenLane(a, b, f2);
    PackChannels(Mix(Blue(a), Blue(b), f2), Mix(Green(a), Green(b), f2), Mix(Red(a), Red(b), f2));
    BitOr(redBlue, green)
  }

  /** Masking with 0xff00ff and 0x00ff00 splits a colour into its lanes. */
  lemma MaskedLanes(a: int)
    ensures BitAnd(a, Mask1) == Blue(a) + 0x1_0000 * Red(a)
    ensures BitAnd(a, Mask2) == 0x100 * Green(a)
  {
    var u := a % TwoTo32;
    var q := a / TwoTo32;
    assert a == u + (q * 256) * TwoTo24;
    HighBytesIgnored(u, q * 256);
    assert Mask1 % TwoTo32 == Mask1 && Mask2 % TwoTo32 == Mask2;
    AndMaskBytes02(u);
    AndMaskByte1(u);
    assert Int32(Blue(u) + 0x1_0000 * Red(u)) == Blue(u) + 0x1_0000 * Red(u);
    assert Int32(0x100 * Green(u)) == 0x100 * Green(u);
  }

  /**
    * In the red+blue lane the blue products stay below 0x10000, so they
    * never carry into the red byte, and the red products stay below 0x10000
    * as well, so the lane stays below 2^32.
    */
  lemma NoCarryBetweenLanes(a: int, b: int, f2: int)
    requires 0 <= f2 <= 256
    ensures var blueSum := Blue(a) * (256 - f2) + Blue(b) * f2;
            var redSum := Red(a) * (256 - f2) + Red(b) * f2;
            BitAnd(a, Mask1) * (256 - f2) + BitAnd(b, Mask1) * f2 == blueSum + 0x1_0000 * redSum &&
            0 <= blueSum < 0x1_0000 && 0 <= redSum < 0x1_0000
  {
    MaskedLanes(a);
    MaskedLanes(b);
    MixBounds(Blue(a), Blue(b), f2);
    MixBounds(Red(a), Red(b), f2);
    LaneProduct(Blue(a), Red(a), 256 - f2);
    LaneProduct(Blue(b), Red(b), f2);
  }

  lemma LaneProduct(lo: int, hi: int, f: int)
    ensures (lo + 0x1_0000 * hi) * f == lo * f + 0x1_0000 * (hi * f)
  {
  }

  lemma RedBlueLane(a: int, b: int, f2: int)
    requires 0 <= f2 <= 256
    ensures BitAnd(ShiftRight(BitAnd(a, Mask1) * (256 - f2) + BitAnd(b, Mask1) * f2, 8), Mask1)
            == Mix(Blue(a), Blue(b), f2) + 0x1_0000 * Mix(Red(a), Red(b), f2)
  {
    var blueSum := Blue(a) * (256 - f2) + Blue(b) * f2;
    var redSum := Red(a) * (256 - f2) + Red(b) * f2;
    var lane := BitAnd(a, Mask1) * (256 - f2) + BitAnd(b, Mask1) * f2;
    NoCarryBetweenLanes(a, b, f2);
    ShiftedLane(lane, blueSum, redSum);
    assert Mix(Blue(a), Blue(b), f2) == blueSum / 256;
    assert Mix(Red(a), Red(b), f2) == redSum / 256;
  }

  /** Shifting the red+blue lane down by 8 and masking keeps both blended bytes. */
  lemma ShiftedLane(s: int, blueSum: int, redSum: int)
    requires 0 <= blueSum < 0x1_0000 && 0 <= redSum < 0x1_0000
    requires s == blueSum + 0x1_0000 * redSum
    ensures BitAnd(ShiftRight(s, 8), Mask1) == blueSum / 256 + 0x1_0000 * (redSum / 256)
  {
    var n := blueSum / 256 + 256 * redSum;
    assert s / 256 == n by {
      DivAddMultiple(blueSum, 256 * redSum, 256);
    }
    var u := ShiftRight(s, 8) % TwoTo32;
    var k := SignedShiftUnsigned(s);
    LaneBytes(n, k, blueSum, redSum);
    assert Mask1 % TwoTo32 == 0xff00ff;
    AndMaskBytes02(u);
    var m := blueSum / 256 + 0x1_0000 * (redSum / 256);
    assert And(u, 0xff00ff) == m;
    assert Int32(m) == m;
  }

  /** Bytes 0 and 2 of the shifted lane, whatever the sign fill k puts in byte 3. */
  lemma LaneBytes(n: int, k: int, blueSum: int, redSum: int)
    requires 0 <= blueSum < 0x1_0000 && 0 <= redSum < 0x1_0000
    requires n == blueSum / 256 + 256 * redSum
    ensures var u := n + k * TwoTo24;
            u % 256 == blueSum / 256 && (u / 0x1_0000) % 256 == redSum / 256
  {
    DivAddMultiple(n, k * 0x1_0000, 256);
    DivAddMultiple(n, k * 256, 0x1_0000);
    DivAddMultiple(n / 0x1_0000, k, 256);
    DivUnique(n, 256, redSum, blueSum / 256);
    DivUnique(n, 0x1_0000, redSum / 256, blueSum / 256 + 256 * (redSum % 256));
  }

  /**
    * `s >> 8` for 0 <= s < 2^32: ToInt32 may make s negative, but seen as
    * 32 unsigned bits the result is s / 256 with the top byte filled by
    * the sign (k = 0 or k = 255).
    */
  lemma SignedShiftUnsigned(s: int) returns (k: int)
    requires 0 <= s < TwoTo32
    ensures k == 0 || k == 255
    ensures ShiftRight(s, 8) % TwoTo32 == s / 256 + k * TwoTo24
  {
    assert Pow2(8) == 256;
    if s < TwoTo31 {
      k := 0;
      assert Int32(s) == s;
    } else {
      k := 255;
      assert Int32(s) == s - TwoTo32;
      DivAddMultiple(s, -(TwoTo24 as int), 256);
      DivUnique(s / 256 - TwoTo24, TwoTo32, -1, s / 256 + 255 * TwoTo24);
    }
  }

  lemma GreenLane(a: int, b: int, f2: int)
    requires 0 <= f2 <= 256
    ensures BitAnd(ShiftRight(BitAnd(a, Mask2) * (256 - f2) + BitAnd(b, Mask2) * f2, 8), Mask2)
            == 0x100 * Mix(Green(a), Green(b), f2)
  {
    MaskedLanes(a);
    MaskedLanes(b);
    var greenSum := Green(a) * (256 - f2) + Green(b) * f2;
    MixBounds(Green(a), Green(b), f2);
    assert BitAnd(a, Mask2) * (256 - f2) + BitAnd(b, Mask2) * f2 == 256 * greenSum by {
      ScaledProduct(Green(a), 256 - f2);
      ScaledProduct(Green(b), f2);
    }
    GreenShift(greenSum);
  }

  /** The green lane, shifted down by 8 and masked, keeps the blended byte. */
  lemma GreenShift(greenSum: int)
    requires 0 <= greenSum < 0x1_0000
    ensures BitAnd(ShiftRight(256 * greenSum, 8), Mask2) == 0x100 * (greenSum / 256)
  {
    ShiftBackBy8(greenSum);
    GreenByte(greenSum);
  }

  /** `(256 * g) >> 8` is g while 256 * g fits in 31 bits. */
  lemma ShiftBackBy8(g: int)
    requires 0 <= g < 0x1_0000
    ensures ShiftRight(256 * g, 8) == g
  {
    assert Pow2(8) == 256;
    assert Int32(256 * g) == 256 * g;
    DivAddMultiple(0, g, 256);
  }

  /** Masking with 0xff00 keeps byte 1 of a 16-bit value. */
  lemma GreenByte(g: int)
    requires 0 <= g < 0x1_0000
    ensures BitAnd(g, Mask2) == 0x100 * (g / 256)
  {
    assert g % TwoTo32 == g && Mask2 % TwoTo32 == 0xff00;
    AndMaskByte1(g);
    var hi := g / 256;
    assert 0 <= hi < 256;
    assert hi % 256 == hi;
    assert Int32(hi * 256) == hi * 256;
  }

  lemma ScaledProduct(g: int, f: int)
    ensures (0x100 * g) * f == 256 * (g * f)
  {
  }

  /** ORing the two lanes back together packs the three blended bytes. */
  lemma PackChannels(bb: Byte, gg: Byte, rb: Byte)
    ensures var r := BitOr(bb + 0x1_0000 * rb, 0x100 * gg);
            r == bb + 0x100 * gg + 0x1_0000 * rb &&
            Red(r) == rb && Green(r) == gg && Blue(r) == bb
  {
    PackedOr(bb, gg, rb);
    PackedBytes(bb, gg, rb);
  }

  lemma PackedOr(bb: Byte, gg: Byte, rb: Byte)
    ensures BitOr(bb + 0x1_0000 * rb, 0x100 * gg) == bb + 0x100 * gg + 0x1_0000 * rb
  {
    var x, y := bb + 0x1_0000 * rb, 0x100 * gg;
    assert x % TwoTo32 == x && y % TwoTo32 == y;
    OrDisjointBytes(bb, gg, rb);
    var r := bb + 0x100 * gg + 0x1_0000 * rb;
    assert Or(x, y) == r;
    assert Int32(r) == r;
  }

  lemma PackedBytes(bb: Byte, gg: Byte, rb: Byte)
    ensures var r := bb + 0x100 * gg + 0x1_0000 * rb;
            Red(r) == rb && Green(r) == gg && Blue(r) == bb
  {
    var r := bb + 0x100 * gg + 0x1_0000 * rb;
    DivUnique(r, 0x1_0000, rb, bb + 0x100 * gg);
    DivUnique(r, 0x100, gg + 0x100 * rb, bb);
    DivUnique(gg + 0x100 * rb, 0x100, rb, gg);
  }

  /** A number below 2^24 is determined by its three channels. */
  lemma ChannelsDetermine(c: int)
    requires 0 <= c < TwoTo24
    ensures c == Blue(c) + 0x100 * Green(c) + 0x1_0000 * Red(c)
  {
    var g := c / 0x100;
    assert c == g * 0x100 + c % 0x100;
    assert g == (g / 0x100) * 0x100 + g % 0x100;
    DivUnique(c, 0x1_0000, g / 0x100, c % 0x100 + 0x100 * (g % 0x100));
  }

  lemma SameChannels(a: int)
    ensures Red(a % TwoTo24) == Red(a) && Green(a % TwoTo24) == Green(a) && Blue(a % TwoTo24) == Blue(a)
  {
    var u, q := a % TwoTo24, a / TwoTo24;
    assert a == u + q * TwoTo24;
    HighBytesIgnored(u, q);
  }

  /** Adding a multiple of 2^24 leaves the three channels alone. */
  lemma HighBytesIgnored(u: int, q: int)
    ensures Red(u + q * TwoTo24) == Red(u) && Green(u + q * TwoTo24) == Green(u) && Blue(u + q * TwoTo24) == Blue(u)
  {
    SameBlue(u, q);
    SameGreen(u, q);
    SameRed(u, q);
  }

  lemma SameBlue(u: int, q: int)
    ensures Blue(u + q * TwoTo24) == Blue(u)
  {
    assert u + q * TwoTo24 == u + (q * 0x1_0000) * 256;
    DivAddMultiple(u, q * 0x1_0000, 256);
  }

  lemma SameGreen(u: int, q: int)
    ensures Green(u + q * TwoTo24) == Green(u)
  {
    assert u + q * TwoTo24 == u + (q * 0x1_0000) * 256;
    DivAddMultiple(u, q * 0x1_0000, 256);
    assert (u + q * TwoTo24) / 0x100 == u / 0x100 + (q * 256) * 256;
    DivAddMultiple(u / 0x100, q * 256, 256);
  }

  lemma SameRed(u: int, q: int)
    ensures Red(u + q * TwoTo24) == Red(u)
  {
    assert u + q * TwoTo24 == u + (q * 256) * 0x1_0000;
    DivAddMultiple(u, q * 256, 0x1_0000);
    assert (u + q * TwoTo24) / 0x1_0000 == u / 0x1_0000 + q * 256;
    DivAddMultiple(u / 0x1_0000, q, 256);
  }

  /** Fraction 0 gives the first colour and fraction 1 (f2 = 256) the second, cut to 24 bits. */
  lemma InterpEndpoints(a: int, b: int)
    ensures Interp(a, b, 0) == a % TwoTo24
    ensures Interp(a, b, 256) == b % TwoTo24
  {
    InterpAtStart(a, b);
    InterpAtStart(b, a);
    InterpSymmetric(a, b, 256);
  }

  lemma InterpAtStart(a: int, b: int)
    ensures Interp(a, b, 0) == a % TwoTo24
  {
    var r := Interp(a, b, 0);
    assert Red(r) == Red(a) && Green(r) == Green(a) && Blue(r) == Blue(a);
    ChannelsDetermine(r);
    ChannelsDetermine(a % TwoTo24);
    SameChannels(a);
  }

  /** Swapping the colours and the weights gives the same blend. */
  lemma InterpSymmetric(a: int, b: int, f2: int)
    requires 0 <= f2 <= 256
    ensures Interp(a, b, f2) == Interp(b, a, 256 - f2)
  {
    var r, s := Interp(a, b, f2), Interp(b, a, 256 - f2);
    assert Red(r) == Red(s) && Green(r) == Green(s) && Blue(r) == Blue(s);
    ChannelsDetermine(r);
    ChannelsDetermine(s);
  }

  // ---------------------------------------------------------------------
  // l(start, end, amt)

  /** `l(start, end, amt)`: linear interpolation on exact reals. */
  function Lerp(start: real, end: real, amt: real): (r: real)
    ensures amt == 0.0 ==> r == start
    ensures amt == 1.0 ==> r == end
    ensures 0.0 <= amt <= 1.0 && start <= end ==> start <= r <= end
    ensures 0.0 <= amt <= 1.0 && end <= start ==> end <= r <= start
  {
    LerpBetween(start, end, amt);
    (1.0 - amt) * start + amt * end
  }

  lemma LerpBetween(start: real, end: real, amt: real)
    ensures (1.0 - amt) * start + amt * end == start + amt * (end - start)
    ensures 0.0 <= amt <= 1.0 && start <= end ==> 0.0 <= amt * (end - start) <= end - start
    ensures 0.0 <= amt <= 1.0 && end <= start ==> 0.0 <= amt * (start - end) <= start - end
  {
    if 0.0 <= amt <= 1.0 {
      if start <= end {
        RealMulNonneg(amt, end - start);
        RealMulNonneg(1.0 - amt, end - start);
      } else {
        RealMulNonneg(amt, start - end);
        RealMulNonneg(1.0 - amt, start - end);
      }
    }
  }
}

=== FILE: jsnumbers.dfy ===
/**
  * The parts of JavaScript number semantics the visualiser relies on:
  * bytes of a Uint8Array, `undefined` for a read past its end, the
  * 32-bit conversion ToInt32 that `|0`, `&`, `|` and `>>` apply to their
  * operands, and the bitwise operators themselves, defined bit by bit on
  * non-negative integers.
  */
module JsNumbers {

  /** An element of a Uint8Array. */
  type Byte = x: int | 0 <= x < 256

  /** A read `a[k]` of a typed array yields `undefined` outside its bounds. */
  datatype Option<T> = None | Some(value: T)

  function At(a: seq<Byte>, k: int): (r: Option<Byte>)
    ensures r.Some? <==> 0 <= k < |a|
    ensures r.Some? ==> r.value == a[k]
  {
    if 0 <= k < |a| then Some(a[k]) else None
  }

  const TwoTo24: nat := 0x100_0000
  const TwoTo31: nat := 0x8000_0000
  const TwoTo32: nat := 0x1_0000_0000

  function Pow2(k: nat): (r: nat)
    ensures r >= 1
  {
    if k == 0 then 1 else 2 * Pow2(k - 1)
  }

  /** `a` shifted left by k bits, written without multiplication by a variable. */
  function Shl(a: nat, k: nat): nat
  {
    if k == 0 then a else 2 * Shl(a, k - 1)
  }

  /** Bitwise AND of two non-negative integers. */
  function And(x: nat, y: nat): nat
    decreases x
  {
    if x == 0 || y == 0 then 0
    else 2 * And(x / 2, y / 2) + (if x % 2 == 1 && y % 2 == 1 then 1 else 0)
  }

  /** Bitwise OR of two non-negative integers. */
  function Or(x: nat, y: nat): nat
    decreases x + y
  {
    if x == 0 then y
    else if y == 0 then x
    else 2 * Or(x / 2, y / 2) + (if x % 2 == 1 || y % 2 == 1 then 1 else 0)
  }

  /** Truncation toward zero, the first step of ToInt32. */
  function Trunc(x: real): (r: int)
    ensures 0.0 <= x ==> 0 <= r && r as real <= x < r as real + 1.0
    ensures x < 0.0 ==> r <= 0 && r as real - 1.0 < x <= r as real
  {
    if x >= 0.0 then x.Floor else -((-x).Floor)
  }

  /** ToInt32 of an integer value: reduce modulo 2^32 into [-2^31, 2^31). */
  function Int32(x: int): (r: int)
    ensures -(TwoTo31 as int) <= r < TwoTo31
    ensures (r - x) % TwoTo32 == 0
    ensures -(TwoTo31 as int) <= x < TwoTo31 ==> r == x
  {
    var u := x % TwoTo32;
    if u >= TwoTo31 then u - TwoTo32 else u
  }

  /** ToInt32 of a finite number, as `x | 0` computes it. */
  function ToInt32(x: real): int
  {
    Int32(Trunc(x))
  }

  /** `x & y` on integer-valued numbers. */
  function BitAnd(x: int, y: int): int
  {
    Int32(And(x % TwoTo32, y % TwoTo32))
  }

  /** `x | y` on integer-valued numbers. */
  function BitOr(x: int, y: int): int
  {
    Int32(Or(x % TwoTo32, y % TwoTo32))
  }

  /** `x >> n`, the sign-propagating shift: floor division of ToInt32(x). */
  function ShiftRight(x: int, n: nat): int
    requires n < 32
  {
    Int32(x) / Pow2(n)
  }

  // ---------------------------------------------------------------------
  // Facts about the bitwise operators

  /** ANDing with k one-bits keeps a value below 2^k. */
  lemma {:induction false} AndLowOnes(x: nat, k: nat)
    requires x < Pow2(k)
    ensures And(x, Pow2(k) - 1) == x
  {
    if k != 0 && x != 0 {
      var m := Pow2(k - 1);
      assert (2 * m - 1) / 2 == m - 1 && (2 * m - 1) % 2 == 1;
      AndLowOnes(x / 2, k - 1);
    }
  }

  /** AND works independently on the low k bits and on the bits above them. */
  lemma {:induction false} AndSplit(xh: nat, xl: nat, yh: nat, yl: nat, k: nat)
    requires xl < Pow2(k) && yl < Pow2(k)
    ensures And(Shl(xh, k) + xl, Shl(yh, k) + yl) == And(xl, yl) + Shl(And(xh, yh), k)
  {
    if k != 0 {
      HalfBelow(xl, k);
      HalfBelow(yl, k);
      AndSplit(xh, xl / 2, yh, yl / 2, k - 1);
      AndSplitStep(xh, xl, yh, yl, k);
    } else {
      assert xl == 0 && yl == 0;
      calc {
        And(Shl(xh, k) + xl, Shl(yh, k) + yl);
        And(xh, yh);
        And(xl, yl) + Shl(And(xh, yh), k);
      }
    }
  }

  /** From the split one bit higher to the split at bit k. */
  lemma AndSplitStep(xh: nat, xl: nat, yh: nat, yl: nat, k: nat)
    requires k > 0
    requires And(Shl(xh, k - 1) + xl / 2, Shl(yh, k - 1) + yl / 2) == And(xl / 2, yl / 2) + Shl(And(xh, yh), k - 1)
    ensures And(Shl(xh, k) + xl, Shl(yh, k) + yl) == And(xl, yl) + Shl(And(xh, yh), k)
  {
    var xm, ym, mh := Shl(xh, k - 1), Shl(yh, k - 1), Shl(And(xh, yh), k - 1);
    AndLift(xm, xl, ym, yl, mh);
    assert Shl(xh, k) == 2 * xm && Shl(yh, k) == 2 * ym && Shl(And(xh, yh), k) == 2 * mh;
  }

  lemma HalfBelow(x: nat, k: nat)
    requires k > 0 && x < Pow2(k)
    ensures x / 2 < Pow2(k - 1)
  {
  }

  /** One bit below an already split pair: the step of the induction above. */
  lemma AndLift(xm: nat, xl: nat, ym: nat, yl: nat, mh: nat)
    requires And(xm + xl / 2, ym + yl / 2) == And(xl / 2, yl / 2) + mh
    ensures And(2 * xm + xl, 2 * ym + yl) == And(xl, yl) + 2 * mh
  {
    AndStep(2 * xm + xl, 2 * ym + yl);
    AndStep(xl, yl);
    Halve(xm, xl);
    Halve(ym, yl);
  }

  lemma AndStep(x: nat, y: nat)
    ensures And(x, y) == 2 * And(x / 2, y / 2) + (if x % 2 == 1 && y % 2 == 1 then 1 else 0)
  {
  }

  /** OR works independently on the low k bits and on the bits above them. */
  lemma {:induction false} OrSplit(xh: nat, xl: nat, yh: nat, yl: nat, k: nat)
    requires xl < Pow2(k) && yl < Pow2(k)
    ensures Or(Shl(xh, k) + xl, Shl(yh, k) + yl) == Or(xl, yl) + Shl(Or(xh, yh), k)
  {
    if k != 0 {
      HalfBelow(xl, k);
      HalfBelow(yl, k);
      OrSplit(xh, xl / 2, yh, yl / 2, k - 1);
      OrLift(Shl(xh, k - 1), xl, Shl(yh, k - 1), yl, Shl(Or(xh, yh), k - 1));
    }
  }

  /** One bit below an already split pair: the step of the induction above. */
  lemma OrLift(xm: nat, xl: nat, ym: nat, yl: nat, mh: nat)
    requires Or(xm + xl / 2, ym + yl / 2) == Or(xl / 2, yl / 2) + mh
    ensures Or(2 * xm + xl, 2 * ym + yl) == Or(xl, yl) + 2 * mh
  {
    OrStep(2 * xm + xl, 2 * ym + yl);
    OrStep(xl, yl);
    Halve(xm, xl);
    Halve(ym, yl);
  }

  lemma Halve(a: nat, l: nat)
    ensures (2 * a + l) / 2 == a + l / 2 && (2 * a + l) % 2 == l % 2
  {
  }

  lemma OrStep(x: nat, y: nat)
    ensures Or(x, y) == 2 * Or(x / 2, y / 2) + (if x % 2 == 1 || y % 2 == 1 then 1 else 0)
  {
    if x == 0 {
      assert Or(x / 2, y / 2) == y / 2;
    } else if y == 0 {
      assert Or(x / 2, y / 2) == x / 2;
    }
  }

  lemma Shl8(a: nat)
    ensures Shl(a, 8) == 256 * a
  {
    assert Shl(a, 1) == 2 * a;
    assert Shl(a, 2) == 4 * a;
    assert Shl(a, 3) == 8 * a;
    assert Shl(a, 4) == 16 * a;
    assert Shl(a, 5) == 32 * a;
    assert Shl(a, 6) == 64 * a;
    assert Shl(a, 7) == 128 * a;
  }

  /** `x & 0xff` keeps the low byte. */
  lemma AndLowByte(x: nat)
    ensures And(x, 0xff) == x % 256
  {
    assert Pow2(8) == 256;
    Shl8(x / 256);
    Shl8(0);
    AndSplit(x / 256, x % 256, 0, 0xff, 8);
    AndLowOnes(x % 256, 8);
  }

  /** `x & 0xff00ff` keeps bytes 0 and 2. */
  lemma AndMaskBytes02(x: nat)
    ensures And(x, 0xff00ff) == x % 256 + (x / 0x1_0000) % 256 * 0x1_0000
  {
    assert Pow2(8) == 256;
    var w := x / 256;
    assert x == Shl(w, 8) + x % 256 by { Shl8(w); }
    assert 0xff00ff == Shl(0xff00, 8) + 0xff by { Shl8(0xff00); }
    AndSplit(w, x % 256, 0xff00, 0xff, 8);
    AndLowOnes(x % 256, 8);
    AndMaskByte1(w);
    Shl8(And(w, 0xff00));
    assert w / 256 == x / 0x1_0000;
  }

  /** `x & 0x00ff00` keeps byte 1. */
  lemma AndMaskByte1(x: nat)
    ensures And(x, 0xff00) == (x / 256) % 256 * 256
  {
    assert Pow2(8) == 256;
    Shl8(x / 256);
    Shl8(0xff);
    AndSplit(x / 256, x % 256, 0xff, 0, 8);
    AndLowByte(x / 256);
    Shl8(And(x / 256, 0xff));
  }

  /** OR of a value holding bytes 0 and 2 with one holding byte 1 just adds them. */
  lemma OrDisjointBytes(b0: nat, b1: nat, b2: nat)
    requires b0 < 256 && b1 < 256 && b2 < 256
    ensures Or(b0 + 0x1_0000 * b2, 256 * b1) == b0 + 256 * b1 + 0x1_0000 * b2
  {
    assert Pow2(8) == 256;
    Shl8(256 * b2);
    Shl8(b1);
    OrSplit(256 * b2, b0, b1, 0, 8);
    Shl8(b2);
    Shl8(0);
    OrSplit(b2, 0, 0, b1, 8);
    Shl8(Or(256 * b2, b1));
    Shl8(Or(b2, 0));
  }

  // ---------------------------------------------------------------------
  // Arithmetic facts the solver needs spelled out

  lemma MulNonneg(a: int, b: int)
    requires 0 <= a && 0 <= b
    ensures 0 <= a * b
  {
  }

  lemma MulMono(a: int, b: int, c: int)
    requires a <= b && 0 <= c
    ensures a * c <= b * c
  {
    MulNonneg(b - a, c);
    assert b * c - a * c == (b - a) * c;
  }

  lemma RealMulNonneg(a: real, b: real)
    requires 0.0 <= a && 0.0 <= b
    ensures 0.0 <= a * b
  {
  }

  lemma MulAtLeast(d: int, k: int)
    requires d > 0 && k >= 1
    ensures d * k >= d
  {
    assert d * k == d + d * (k - 1);
    MulNonneg(d, k - 1);
  }

  /** Euclidean division is determined by any quotient/remainder pair. */
  lemma DivUnique(y: int, d: int, q: int, r: int)
    requires d > 0 && 0 <= r < d && y == q * d + r
    ensures y / d == q && y % d == r
  {
    var k := y / d - q;
    assert d * k == r - y % d by {
      assert y == d * (y / d) + y % d;
    }
    if k >= 1 {
      MulAtLeast(d, k);
    } else if k <= -1 {
      MulAtLeast(d, -k);
    }
  }

  lemma DivAddMultiple(x: int, m: int, d: int)
    requires d > 0
    ensures (x + m * d) / d == x / d + m && (x + m * d) % d == x % d
  {
    var q, r := x / d, x % d;
    assert x == q * d + r;
    assert x + m * d == (q + m) * d + r;
    DivUnique(x + m * d, d, q + m, r);
  }
}

=== FILE: schedule.dfy ===
/**
  * How the Visualizer keeps itself running (js/Visualizer.js:85-133):
  * `update` re-arms itself with requestAnimationFrame whenever it runs, and
  * it runs only while the visualiser is active and has a module. The
  * animation-frame queue is abstracted to the number of `update` callbacks
  * waiting in it.
  */
module Scheduling {

  datatype Schedule = Schedule(active: bool, hasModule: bool, pending: nat)

  /** The state before anything happens: inactive, no module, nothing queued. */
  const Initial: Schedule := Schedule(false, false, 0)

  /** The gate at the top of `update`. */
  predicate Runs(s: Schedule)
  {
    s.active && s.hasModule
  }

  /** `update()`: when it runs it queues one more callback of itself. */
  function AfterUpdate(s: Schedule): (r: Schedule)
    ensures Runs(s) ==> r == s.(pending := s.pending + 1)
    ensures !Runs(s) ==> r == s
  {
    if Runs(s) then s.(pending := s.pending + 1) else s
  }

  /** `start()`: only an inactive visualiser is switched on and updated at once. */
  function AfterStart(s: Schedule): (r: Schedule)
    ensures s.active ==> r == s
    ensures !s.active ==> r.active && r.hasModule == s.hasModule &&
                          r.pending == s.pending + (if s.hasModule then 1 else 0)
  {
    if s.active then s else AfterUpdate(s.(active := true))
  }

  /** `stop()` as written: the flag is cleared, the queued callback stays queued. */
  function AfterStop(s: Schedule): (r: Schedule)
    ensures !r.active && r.hasModule == s.hasModule && r.pending == s.pending
  {
    s.(active := false)
  }

  /** `stop()` that also cancels the queued animation frame. */
  function AfterStopCancelling(s: Schedule): (r: Schedule)
    ensures !r.active && r.hasModule == s.hasModule && r.pending == 0
  {
    s.(active := false, pending := 0)
  }

  /** `useModule(m)`: a module is present from now on. */
  function AfterUseModule(s: Schedule): (r: Schedule)
    ensures r.hasModule && r.active == s.active && r.pending == s.pending
  {
    s.(hasModule := true)
  }

  /** The browser invokes one queued callback, which is `update`. */
  function AfterFire(s: Schedule): (r: Schedule)
    requires s.pending > 0
    ensures Runs(s) ==> r == s
    ensures !Runs(s) ==> r == s.(pending := s.pending - 1)
  {
    AfterUpdate(s.(pending := s.pending - 1))
  }

  datatype Event = Start | Stop | UseModule | Fire

  /** One event; a `Fire` with nothing queued cannot happen and changes nothing. */
  function Step(s: Schedule, e: Event, cancelling: bool): Schedule
  {
    match e
    case Start => AfterStart(s)
    case Stop => if cancelling then AfterStopCancelling(s) else AfterStop(s)
    case UseModule => AfterUseModule(s)
    case Fire => if s.pending > 0 then AfterFire(s) else s
  }

  function Run(s: Schedule, events: seq<Event>, cancelling: bool): Schedule
    decreases |events|
  {
    if events == [] then s else Run(Step(s, events[0], cancelling), events[1..], cancelling)
  }

  /** At most one chain of callbacks, and only while it can keep itself going. */
  predicate SingleChain(s: Schedule)
  {
    s.pending <= 1 && (s.pending == 1 ==> Runs(s)) && (!s.active ==> s.pending == 0)
  }

  /** Starting an active visualiser changes nothing, so it cannot add a second chain. */
  lemma StartWhenActive(s: Schedule)
    requires s.active
    ensures AfterStart(s) == s
  {
  }

  /** Stopping twice is the same as stopping once. */
  lemma StopIdempotent(s: Schedule)
    ensures AfterStop(AfterStop(s)) == AfterStop(s)
    ensures AfterStopCancelling(AfterStopCancelling(s)) == AfterStopCancelling(s)
  {
  }

  /** As written: start, stop and start again before the next frame leaves two callbacks queued. */
  lemma RestartQueuesTwo()
    ensures Run(Initial, [UseModule, Start, Stop, Start], false) == Schedule(true, true, 2)
    ensures !SingleChain(Run(Initial, [UseModule, Start, Stop, Start], false))
  {
    var s1 := Step(Initial, UseModule, false);
    var s2 := Step(s1, Start, false);
    var s3 := Step(s2, Stop, false);
    var s4 := Step(s3, Start, false);
    assert s4 == Schedule(true, true, 2);
    assert [UseModule, Start, Stop, Start][1..] == [Start, Stop, Start];
    assert [Start, Stop, Start][1..] == [Stop, Start];
    assert [Stop, Start][1..] == [Start];
  }

  /** ... and each of the two re-arms itself, so every later frame runs `update` twice. */
  lemma {:induction false} TwoChainsPersist(s: Schedule, frames: nat)
    requires Runs(s) && s.pending == 2
    ensures Run(s, Fires(frames), false) == s
    decreases frames
  {
    if frames > 0 {
      assert Step(s, Fire, false) == s;
      TwoChainsPersist(s, frames - 1);
    }
  }

  /** n `Fire` events in a row. */
  function Fires(n: nat): (r: seq<Event>)
    ensures |r| == n
  {
    if n == 0 then [] else [Fire] + Fires(n - 1)
  }

  /** Corrected: when stop cancels the queued frame, every event keeps at most one chain. */
  lemma StepKeepsSingleChain(s: Schedule, e: Event)
    requires SingleChain(s)
    ensures SingleChain(Step(s, e, true))
  {
  }

  lemma {:induction false} CancellingKeepsSingleChain(s: Schedule, events: seq<Event>)
    requires SingleChain(s)
    ensures SingleChain(Run(s, events, true))
    decreases |events|
  {
    if events != [] {
      StepKeepsSingleChain(s, events[0]);
      CancellingKeepsSingleChain(Step(s, events[0], true), events[1..]);
    }
  }

  /** The same restart sequence with the corrected stop leaves exactly one callback queued. */
  lemma RestartQueuesOneWhenCancelling()
    ensures Run(Initial, [UseModule, Start, Stop, Start], true) == Schedule(true, true, 1)
  {
    assert [UseModule, Start, Stop, Start][1..] == [Start, Stop, Start];
    assert [Start, Stop, Start][1..] == [Stop, Start];
    assert [Stop, Start][1..] == [Start];
  }

  /** `start()` before `useModule()`: the flag is set but nothing is queued, and a module set later does not start the loop. */
  lemma StartBeforeModuleStalls(cancelling: bool)
    ensures Run(Initial, [Start], cancelling) == Schedule(true, false, 0)
    ensures Run(Initial, [Start, UseModule], cancelling) == Schedule(true, true, 0)
    ensures Run(Initial, [Start, UseModule, Start], cancelling) == Schedule(true, true, 0)
  {
    assert [Start, UseModule][1..] == [UseModule];
    assert [Start, UseModule, Start][1..] == [UseModule, Start];
    assert [UseModule, Start][1..] == [Start];
  }
}

=== FILE: visualizer.dfy ===
/**
  * The Visualizer (js/Visualizer.js:1-142): it owns the canvas context and
  * the 1024-entry frequency buffer, holds the module that draws each frame,
  * and runs the per-frame cycle: re-arm, read the spectrum, save the drawing
  * state, let the module draw, draw the Analyzer overlay if enabled, restore
  * the drawing state, and keep the frames-per-second readout.
  *
  * The Web Audio analyser, `requestAnimationFrame` and `performance.now` are
  * outside the model: the spectrum and the current time (in seconds) are
  * parameters of each cycle, and the animation-frame queue is the number of
  * callbacks waiting in it.
  */
module Orchestrator {
  import opened JsNumbers
  import opened Canvas2D
  import Overlay
  import opened Circular
  import opened Scheduling
  import opened FrameRate

  /** `frequencyBinCount` of an analyser whose `fftSize` is 2048. */
  const BufferSize: nat := 1024

  /** Where the frames-per-second number is written: `w - 35, 30`. */
  function FpsText(w: real, s: DrawState): DrawOp
  {
    FillText(w - 35.0, 30.0, s)
  }

  /** The calls between `save` and `restore`: the module's frame, then the overlay if it is enabled. */
  function Inside(amount: nat, inward: bool, totalAngle: int, color: string, analyzerEnabled: bool,
                  s0: DrawState, w: real, h: real, freqs: seq<Byte>): seq<DrawOp>
    requires 0 < amount <= |freqs|
  {
    FrameOps(amount, inward, totalAngle, color, s0, w, h, freqs)
    + (if analyzerEnabled
       then Overlay.BarsOps(Overlay.Default, FrameEnd(amount, totalAngle, color, s0, w, h),
                            h, freqs, Overlay.BarCount(Overlay.Default, w))
       else [])
  }

  /** Every draw call of one running cycle, given the module's settings and the state it starts in. */
  function CycleOps(amount: nat, inward: bool, totalAngle: int, color: string,
                    analyzerEnabled: bool, showFps: bool,
                    s0: DrawState, w: real, h: real, freqs: seq<Byte>): seq<DrawOp>
    requires 0 < amount <= |freqs|
  {
    [Save] + Inside(amount, inward, totalAngle, color, analyzerEnabled, s0, w, h, freqs) + [Restore]
    + (if showFps then [FpsText(w, s0)] else [])
  }

  /** No call in `ops` touches the saved-state stack. */
  predicate NoStackOps(ops: seq<DrawOp>)
  {
    forall k :: 0 <= k < |ops| ==> !ops[k].Save? && !ops[k].Restore?
  }

  lemma {:induction false} BarsLeaveStackAlone(c: DrawState, angle: real, inward: bool, w: real, freqs: seq<Byte>, n: nat)
    requires n <= |freqs|
    ensures NoStackOps(BarOps(c, angle, inward, w, freqs, n))
  {
    if n > 0 {
      BarsLeaveStackAlone(c, angle, inward, w, freqs, n - 1);
    }
  }

  lemma {:induction false} OverlayLeavesStackAlone(s: DrawState, h: real, freqs: seq<Byte>, n: nat)
    ensures NoStackOps(Overlay.BarsOps(Overlay.Default, s, h, freqs, n))
  {
    if n > 0 {
      OverlayLeavesStackAlone(s, h, freqs, n - 1);
    }
  }

  lemma NoStackOpsConcat(a: seq<DrawOp>, b: seq<DrawOp>)
    requires NoStackOps(a) && NoStackOps(b)
    ensures NoStackOps(a + b)
  {
    forall k | 0 <= k < |a + b|
      ensures !(a + b)[k].Save? && !(a + b)[k].Restore?
    {
      if k >= |a| {
        assert (a + b)[k] == b[k - |a|];
      }
    }
  }

  lemma FrameLeavesStackAlone(amount: nat, inward: bool, totalAngle: int, color: string,
                              s0: DrawState, w: real, h: real, freqs: seq<Byte>)
    requires 0 < amount <= |freqs|
    ensures NoStackOps(FrameOps(amount, inward, totalAngle, color, s0, w, h, freqs))
  {
    var c := Centered(s0, color, w, h);
    var angle := BarAngle(totalAngle, amount);
    var bars := BarOps(c, angle, inward, w, freqs, amount);
    BarsLeaveStackAlone(c, angle, inward, w, freqs, amount);
    var opening := [ClearRect(0.0, 0.0, w, h, s0), FillRect(0.0, 0.0, w, h, s0.(fillStyle := Background))];
    var closing := [Stroke(FramePath(c, angle, amount, w, h, freqs), StrokeState(c, angle, amount, w, h))];
    NoStackOpsConcat(opening, bars);
    NoStackOpsConcat(opening + bars, closing);
  }

  /** `ops` is a `save`, then calls that leave the stack alone, a `restore`, then `after`. */
  predicate Bracket(ops: seq<DrawOp>, inside: seq<DrawOp>, after: seq<DrawOp>)
  {
    ops == [Save] + inside + [Restore] + after && NoStackOps(inside) && NoStackOps(after)
  }

  /**
    * A running cycle is one bracket: it opens with the only `save`, the
    * module and the overlay draw inside it, and the only `restore` closes it
    * before the frames-per-second text.
    */
  lemma CycleIsOneBracket(amount: nat, inward: bool, totalAngle: int, color: string,
                          analyzerEnabled: bool, showFps: bool,
                          s0: DrawState, w: real, h: real, freqs: seq<Byte>)
    requires 0 < amount <= |freqs|
    ensures var ops := CycleOps(amount, inward, totalAngle, color, analyzerEnabled, showFps, s0, w, h, freqs);
            exists inside, after :: Bracket(ops, inside, after) && |after| == (if showFps then 1 else 0)
  {
    var ops := CycleOps(amount, inward, totalAngle, color, analyzerEnabled, showFps, s0, w, h, freqs);
    var frame := FrameOps(amount, inward, totalAngle, color, s0, w, h, freqs);
    FrameLeavesStackAlone(amount, inward, totalAngle, color, s0, w, h, freqs);
    var afterModule := FrameEnd(amount, totalAngle, color, s0, w, h);
    var overlay := if analyzerEnabled
                   then Overlay.BarsOps(Overlay.Default, afterModule, h, freqs, Overlay.BarCount(Overlay.Default, w))
                   else [];
    OverlayLeavesStackAlone(afterModule, h, freqs, Overlay.BarCount(Overlay.Default, w));
    NoStackOpsConcat(frame, overlay);
    var inside := Inside(amount, inward, totalAngle, color, analyzerEnabled, s0, w, h, freqs);
    assert inside == frame + overlay;
    var after := if showFps then [FpsText(w, s0)] else [];
    assert Bracket(ops, inside, after);
  }

  class Visualizer {
    const canvas: Context
    const w: nat
    const h: nat
    const freqData: array<Byte>
    const analyzer: Overlay.Config
    var currentModule: CircularBars?
    var active: bool
    var analyzerEnabled: bool
    var showFps: bool
    var lastTime: real
    var lastFpsDraw: real
    var fps: Fps
    /** Callbacks of `update` waiting in the animation-frame queue. */
    var pending: nat

    predicate Valid()
      reads this, currentModule
    {
      freqData.Length == BufferSize && analyzer == Overlay.Default &&
      (currentModule != null ==> 0 < currentModule.amount <= BufferSize)
    }

    function Sched(): Schedule
      reads this
    {
      Schedule(active, currentModule != null, pending)
    }

    function Clock(): Timing
      reads this
    {
      Timing(lastTime, lastFpsDraw, fps)
    }

    constructor(width: nat, height: nat)
      ensures Valid() && fresh(canvas) && fresh(freqData)
      ensures w == width && h == height
      ensures canvas.current == InitialState().(font := "15pt Arial", fillStyle := "white")
      ensures canvas.saved == [] && canvas.path == [] && canvas.ops == []
      ensures forall k :: 0 <= k < freqData.Length ==> freqData[k] == 0
      ensures Sched() == Initial
      ensures !analyzerEnabled && showFps
      ensures Clock() == Timing(0.0, 0.0, Rate(0.0))
    {
      var ctx := new Context();
      canvas := ctx;
      w := width;
      h := height;
      active := false;
      freqData := new Byte[BufferSize](_ => 0);
      lastTime := 0.0;
      analyzer := Overlay.Default;
      currentModule := null;
      analyzerEnabled := false;
      showFps := true;
      lastFpsDraw := 0.0;
      fps := Rate(0.0);
      pending := 0;
      new;
      canvas.SetFont("15pt Arial");
      canvas.SetFillStyle("white");
    }

    /** The same module object, with its bar count, direction, auto-rotation and colour unchanged. */
    twostate predicate SettingsKept()
      reads this, currentModule
    {
      && currentModule == old(currentModule)
      && (currentModule != null ==>
            && currentModule.amount == old(currentModule.amount)
            && currentModule.inward == old(currentModule.inward)
            && currentModule.autoRotate == old(currentModule.autoRotate)
            && currentModule.secondaryColor == old(currentModule.secondaryColor))
    }

    /**
      * What one call of `update` does to everything but the flags and the
      * queue: nothing when it does not run, otherwise one full cycle.
      */
    twostate predicate Cycled(now: real, spectrum: seq<Byte>)
      reads this, canvas, freqData, currentModule
    {
      && SettingsKept()
      && canvas.saved == old(canvas.saved)
      && canvas.current == old(canvas.current)
      && if active && currentModule != null then
           && freqData[..] == spectrum
           && Clock() == FpsStep(old(Clock()), showFps, now)
           && currentModule.totalAngle == NextTotalAngle(currentModule.autoRotate, old(currentModule.totalAngle))
           && 0 < currentModule.amount <= |spectrum|
           && canvas.ops == old(canvas.ops)
                            + CycleOps(currentModule.amount, currentModule.inward, old(currentModule.totalAngle), currentModule.secondaryColor,
                                       analyzerEnabled, showFps, old(canvas.current), w as real, h as real, spectrum)
           && canvas.path == FramePath(Centered(old(canvas.current), currentModule.secondaryColor, w as real, h as real),
                                       BarAngle(old(currentModule.totalAngle), currentModule.amount), currentModule.amount,
                                       w as real, h as real, spectrum)
         else
           && freqData[..] == old(freqData[..])
           && Clock() == old(Clock())
           && (currentModule != null ==> currentModule.totalAngle == old(currentModule.totalAngle))
           && canvas.ops == old(canvas.ops)
           && canvas.path == old(canvas.path)
    }

    /** `update()`, with the time `performance.now() / 1000` and the analyser's spectrum as parameters. */
    method Update(now: real, spectrum: seq<Byte>)
      requires Valid() && |spectrum| == BufferSize
      modifies this, canvas, freqData, currentModule
      ensures Valid()
      ensures Sched() == AfterUpdate(old(Sched()))
      ensures active == old(active) && analyzerEnabled == old(analyzerEnabled) && showFps == old(showFps)
      ensures Cycled(now, spectrum)
    {
      if active && currentModule != null {
        // requestAnimationFrame(this.update)
        pending := pending + 1;
        // analyser.getByteFrequencyData(this.byteFrequencyData)
        forall k | 0 <= k < freqData.Length {
          freqData[k] := spectrum[k];
        }
        assert freqData[..] == spectrum;
        ghost var s0 := canvas.current;
        ghost var ops0 := canvas.ops;
        ghost var clock0 := Clock();
        ghost var angle0 := currentModule.totalAngle;
        ghost var inside := DrawBracketed();
        ghost var bracketed := canvas.ops;
        UpdateClock(now);
        AppendFour(ops0, [Save], inside, [Restore], if showFps then [FpsText(w as real, s0)] else []);
      }
    }

    /** Lines 104-115 of `update`: the frames-per-second readout and the frame time. */
    method UpdateClock(now: real)
      modifies this, canvas
      ensures Clock() == FpsStep(old(Clock()), showFps, now)
      ensures canvas.ops == old(canvas.ops) + (if showFps then [FpsText(w as real, canvas.current)] else [])
      ensures canvas.current == old(canvas.current) && canvas.saved == old(canvas.saved) && canvas.path == old(canvas.path)
      ensures currentModule == old(currentModule) && active == old(active) && pending == old(pending)
      ensures analyzerEnabled == old(analyzerEnabled) && showFps == old(showFps)
    {
      var currentTime := now;
      if showFps {
        var delta := currentTime - lastTime;
        if currentTime - lastFpsDraw > 0.5 {
          lastFpsDraw := currentTime;
          fps := FpsOf(delta);
        }
        canvas.FillText(w as real - 35.0, 30.0);
      }
      lastTime := currentTime;
    }

    /** Lines 95-103 of `update`: save, module draw, optional overlay draw, restore. */
    method DrawBracketed() returns (ghost inside: seq<DrawOp>)
      requires Valid() && currentModule != null
      modifies canvas, currentModule`totalAngle
      ensures Valid()
      ensures currentModule.totalAngle == NextTotalAngle(currentModule.autoRotate, old(currentModule.totalAngle))
      ensures canvas.current == old(canvas.current) && canvas.saved == old(canvas.saved)
      ensures inside == Inside(currentModule.amount, currentModule.inward, old(currentModule.totalAngle), currentModule.secondaryColor,
                               analyzerEnabled, old(canvas.current), w as real, h as real, freqData[..])
      ensures canvas.ops == old(canvas.ops) + [Save] + inside + [Restore]
      ensures canvas.path == FramePath(Centered(old(canvas.current), currentModule.secondaryColor, w as real, h as real),
                                       BarAngle(old(currentModule.totalAngle), currentModule.amount), currentModule.amount,
                                       w as real, h as real, freqData[..])
    {
      ghost var s0 := canvas.current;
      ghost var stack := canvas.saved;
      canvas.Save();
      inside := DrawInside(s0, currentModule.totalAngle);
      assert canvas.saved == stack + [s0];
      assert (stack + [s0])[..|stack|] == stack;
      canvas.Restore();
    }

    /** Inside the bracket: the module draws its frame, then the overlay if it is enabled. */
    method DrawInside(ghost s0: DrawState, ghost angle0: int) returns (ghost inside: seq<DrawOp>)
      requires Valid() && currentModule != null && currentModule.totalAngle == angle0
      requires canvas.current == s0
      modifies canvas, currentModule`totalAngle
      ensures Valid()
      ensures currentModule.totalAngle == NextTotalAngle(currentModule.autoRotate, angle0)
      ensures canvas.saved == old(canvas.saved)
      ensures inside == Inside(currentModule.amount, currentModule.inward, angle0, currentModule.secondaryColor,
                               analyzerEnabled, s0, w as real, h as real, freqData[..])
      ensures canvas.ops == old(canvas.ops) + inside
      ensures canvas.path == FramePath(Centered(s0, currentModule.secondaryColor, w as real, h as real),
                                       BarAngle(angle0, currentModule.amount), currentModule.amount,
                                       w as real, h as real, freqData[..])
    {
      ghost var ops0 := canvas.ops;
      currentModule.Update(canvas, w as real, h as real, freqData[..]);
      ghost var frame := FrameOps(currentModule.amount, currentModule.inward, angle0, currentModule.secondaryColor,
                                  s0, w as real, h as real, freqData[..]);
      ghost var afterFrame := canvas.ops;
      if analyzerEnabled {
        Overlay.Draw(analyzer, canvas, w as real, h as real, freqData[..]);
      }
      inside := Inside(currentModule.amount, currentModule.inward, angle0, currentModule.secondaryColor,
                       analyzerEnabled, s0, w as real, h as real, freqData[..]);
      AppendTwo(ops0, frame, canvas.ops[|afterFrame|..]);
    }

    /** The browser runs one queued callback of `update`. */
    method OnAnimationFrame(now: real, spectrum: seq<Byte>)
      requires Valid() && |spectrum| == BufferSize && pending > 0
      modifies this, canvas, freqData, currentModule
      ensures Valid()
      ensures Sched() == AfterFire(old(Sched()))
      ensures active == old(active) && analyzerEnabled == old(analyzerEnabled) && showFps == old(showFps)
      ensures Cycled(now, spectrum)
    {
      pending := pending - 1;
      Update(now, spectrum);
    }

    /** `start()`: an inactive visualiser becomes active and runs one cycle at once. */
    method Start(now: real, spectrum: seq<Byte>)
      requires Valid() && |spectrum| == BufferSize
      modifies this, canvas, freqData, currentModule
      ensures Valid()
      ensures Sched() == AfterStart(old(Sched()))
      ensures analyzerEnabled == old(analyzerEnabled) && showFps == old(showFps)
      ensures old(active) ==> && SettingsKept() && Clock() == old(Clock()) && freqData[..] == old(freqData[..])
                              && (currentModule != null ==> currentModule.totalAngle == old(currentModule.totalAngle))
                              && canvas.ops == old(canvas.ops) && canvas.current == old(canvas.current)
                              && canvas.saved == old(canvas.saved) && canvas.path == old(canvas.path)
      ensures !old(active) ==> Cycled(now, spectrum)
    {
      if !active {
        active := true;
        Update(now, spectrum);
      }
    }

    /**
      * `stop()`: inactive, the whole canvas cleared. The animation frame the
      * last `update` requested stays queued (`Scheduling.AfterStop`), so a
      * quick restart runs two update chains (`Scheduling.RestartQueuesTwo`).
      */
    method Stop()
      requires Valid()
      modifies this, canvas
      ensures Valid()
      ensures Sched() == AfterStop(old(Sched()))
      ensures currentModule == old(currentModule)
      ensures analyzerEnabled == old(analyzerEnabled) && showFps == old(showFps) && Clock() == old(Clock())
      ensures canvas.ops == old(canvas.ops) + [ClearRect(0.0, 0.0, w as real, h as real, old(canvas.current))]
      ensures canvas.current == old(canvas.current) && canvas.saved == old(canvas.saved) && canvas.path == old(canvas.path)
    {
      active := false;
      Cls();
    }

    /** `stop(); start()` on a running visualiser before its next frame: the old callback stays queued and `start` queues another. */
    method StopThenStart(now: real, spectrum: seq<Byte>)
      requires Valid() && |spectrum| == BufferSize && active && currentModule != null
      modifies this, canvas, freqData, currentModule
      ensures active && currentModule != null && pending == old(pending) + 1
    {
      Stop();
      Start(now, spectrum);
    }

    /** `cls()` with its default arguments: clear the whole canvas. */
    method Cls()
      modifies canvas
      ensures canvas.ops == old(canvas.ops) + [ClearRect(0.0, 0.0, w as real, h as real, old(canvas.current))]
      ensures canvas.current == old(canvas.current) && canvas.saved == old(canvas.saved) && canvas.path == old(canvas.path)
    {
      canvas.ClearRect(0.0, 0.0, w as real, h as real);
    }

    /** `useModule(CircularBars)`: a fresh currentModule with its defaults. */
    method UseModule()
      requires Valid()
      modifies this
      ensures Valid() && fresh(currentModule)
      ensures Sched() == AfterUseModule(old(Sched()))
      ensures currentModule.amount == 100 && !currentModule.inward && currentModule.totalAngle == 360 && !currentModule.autoRotate
      ensures currentModule.secondaryColor == "#ba88bf"
      ensures analyzerEnabled == old(analyzerEnabled) && showFps == old(showFps) && Clock() == old(Clock())
    {
      currentModule := new CircularBars();
    }

    method ToggleAnalyzer()
      modifies this
      ensures analyzerEnabled == !old(analyzerEnabled)
      ensures Sched() == old(Sched()) && currentModule == old(currentModule) && showFps == old(showFps) && Clock() == old(Clock())
    {
      analyzerEnabled := !analyzerEnabled;
    }

    method ToggleFps()
      modifies this
      ensures showFps == !old(showFps)
      ensures Sched() == old(Sched()) && currentModule == old(currentModule) && analyzerEnabled == old(analyzerEnabled)
      ensures Clock() == old(Clock())
    {
      showFps := !showFps;
    }
  }
}
